=== FILE: README.md ===
# Thermal rig control core, modelled in Dafny

This project models the control core of a Raspberry Pi thermal rig that holds
a Peltier element at a sequence of temperature/duration segments while a lid
heater is held at a fixed setpoint:

- the two bang-bang actuator laws (`HeaterController`, `PeltierController`),
  over immutable pin/duty records, sharing one dead-band verdict (`Deadband`);
- sensor conditioning (`TemperatureSensor`): the exponential filter on the
  thermocouple and the NTC divider-plus-Beta-curve conversion with its
  failure paths;
- the cycle-list parser of the command line (`parse_cycles`) and the
  `TemperatureCycle` record;
- run orchestration (`TemperatureController.run/_run_cycle/_log`): the ordered
  list of events and side effects of a run, the log rows, the per-tick
  actuator commands, the final shutdown and the SSE framing of yielded values.

Files: `wrappers.dfy` (Option/Result), `deadband.dfy`, `heater.dfy`,
`peltier.dfy`, `sensor.dfy`, `cycles.dfy`, `controller.dfy`.

Modelling choices:

- Numbers are `real`. An unavailable NTC reading, which the source turns into
  NaN, is `None`; the heater's `update` receives it and, as in the source where
  NaN fails both comparisons, takes the switch-off branch.
- `math.exp` and `math.log` are function parameters (`exp`, `ln`). `read_ntc`
  fails (None) exactly where Python raises: a failed bus read, a zero voltage,
  a zero R∞, a non-positive log argument, or a zero log.
- `float()` is a parameter `parseFloat: string -> Option<real>`, and
  `str(float)` / `:.2f` are the two formatters of `Controller.Formats`.
- The wall clock is not modelled. Each cycle receives the list of ticks its
  `elapsed <= duration` loop admitted, each carrying the timestamp of its log
  row, the raw thermocouple value and the NTC voltage.
- The generator is modelled by the complete ordered list of `Effect`s of a
  run (yielded events, log appends, actuator commands, shutdown, persistence);
  `Events` and `Log` project the yielded events and the log rows out of it.
- `self.data` is created empty only in the constructor and `run` never
  clears it, so a second run on the same controller writes the rows of both
  runs to its file; `Run` appends to the controller's existing rows.
- A missing NTC reading reaches `HeaterController.update` as NaN, where both
  comparisons are false, so the heater takes its switch-off branch; the model
  states that behaviour.
- Nothing in the code keeps the smoothing factor in (0, 1] or the durations
  non-negative; the model accepts any value and states the filter's bounds
  only for a factor in [0, 1].

## Model

| member | source | states |
|---|---|---|
| `Deadband.Judge` | thermal_logic_pi/heater.py:22-30 | the shared dead-band verdict: hold exactly when the error lies strictly inside the band; with a positive band act upward exactly when the measurement is at least a band-width below the setpoint, with no band exactly when it is below at all; a missing (NaN) measurement never holds or raises |
| `Deadband.JudgeSymmetric` | thermal_logic_pi/peltier.py:28-32 | the band is symmetric: negating setpoint and measurement keeps a hold a hold and swaps heating and cooling |
| `Heater.Init` | thermal_logic_pi/heater.py:4-11 | a new heater has PWM 0 and both direction pins released |
| `Heater.On` | thermal_logic_pi/heater.py:13-15 | `on()` selects ctrl1 on, ctrl2 off and leaves the PWM level alone |
| `Heater.Off` | thermal_logic_pi/heater.py:17-20 | `off()` releases both pins and zeroes the PWM from any state |
| `Heater.Update` | thermal_logic_pi/heater.py:22-30 | inside the 0.5 °C band the PWM goes to 0 with pins untouched; at least 0.5 °C low the heater is driven forward at duty 1; at least 0.5 °C high or without a reading it is fully off; duty is 1 exactly in the low case, never when at or above the setpoint; duty stays 0/1 and pin exclusivity is preserved |
| `Heater.OffIdempotent` | thermal_logic_pi/heater.py:17-20 | switching off twice equals switching off once |
| `Heater.UpdateIdempotent` | thermal_logic_pi/heater.py:22-30 | a repeated update with the same arguments changes nothing more |
| `Peltier.Init` | thermal_logic_pi/peltier.py:4-13 | a new Peltier has PWM 0, fan 0, both pins released and keeps the given neutral zone |
| `Peltier.Heat` | thermal_logic_pi/peltier.py:15-17 | `heat()` sets ctrl1 off, ctrl2 on and touches nothing else |
| `Peltier.Cool` | thermal_logic_pi/peltier.py:19-21 | `cool()` sets ctrl1 on, ctrl2 off and touches nothing else |
| `Peltier.Off` | thermal_logic_pi/peltier.py:23-25 | `off()` zeroes PWM and fan but leaves the polarity pins as they were |
| `Peltier.Update` | thermal_logic_pi/peltier.py:27-39 | inside the band: PWM and fan 0, polarity untouched; far enough below: heating polarity, duty 1, fan 1; far enough above: cooling polarity, duty 1, fan 0; for any band width, including one ≤ 0, the verdict alone decides heating, cooling or quiet; the fan runs exactly when the heating branch was taken; levels stay 0/1 and pin exclusivity is preserved |
| `Peltier.OffIdempotent` | thermal_logic_pi/peltier.py:23-25 | switching off twice equals switching off once |
| `Peltier.UpdateIdempotent` | thermal_logic_pi/peltier.py:27-39 | a repeated update with the same arguments changes nothing more |
| `Sensor.OpenThermocouple` | thermal_logic_pi/sensor.py:24-31 | the filter state starts at the first raw reading with the given factor |
| `Sensor.ReadThermocouple` | thermal_logic_pi/sensor.py:46-49 | the returned value is the new state; its gap to the raw reading is (1 − α) times the previous gap; for α in [0, 1] it lies between the previous value and the raw reading; a raw reading equal to the state leaves it unchanged |
| `Sensor.SmoothAppend` | thermal_logic_pi/sensor.py:46-49 | the filter state carries everything: reading one run of raw values and then another is the same as reading their concatenation |
| `Sensor.SmoothStep` | thermal_logic_pi/sensor.py:46-49 | the k-th reading of a run is one `read_thermocouple` call on the state the earlier readings left |
| `Sensor.SmoothStaysInRange` | thermal_logic_pi/sensor.py:48 | for α in [0, 1] the filter never leaves an interval holding its start and every raw reading |
| `Sensor.SmoothConstantIsSettle` | thermal_logic_pi/sensor.py:46-49 | reading a constant input n times is the n-step settling the constant-input lemmas describe |
| `Sensor.TraceAppend` | thermal_logic_pi/sensor.py:46-49 | the values returned over two consecutive runs of readings are those of the first run followed by those of the second started from the state the first left |
| `Sensor.SettleIsRepeatedRead` | thermal_logic_pi/sensor.py:46-49 | holding the input for n readings is n successive `read_thermocouple` calls |
| `Sensor.ConstantInputContracts` | thermal_logic_pi/sensor.py:48 | after n readings of a constant input the gap to it is (1 − α)^n times the initial gap |
| `Sensor.ConstantInputNeverOvershoots` | thermal_logic_pi/sensor.py:48 | for α in [0, 1] the filtered value under a constant input always stays between its start and the input |
| `Sensor.Calibrate` | thermal_logic_pi/sensor.py:39-44 | the Beta-curve constants are kept; when exp(−β/T0) ≠ 0, R∞ divided by it gives back R0; R∞ is zero exactly when R0 or exp(−β/T0) is |
| `Sensor.CalibrationPointReadsBack` | thermal_logic_pi/sensor.py:44-56 | with the calibration computed at construction, a thermistor at R0 reads back T0 − 273 (when exp(−x)·exp(x) = 1 and ln undoes exp at x = β/T0) |
| `Sensor.Resistance` | thermal_logic_pi/sensor.py:54 | the computed resistance satisfies the divider equation (Rt + Rs)·v = Vcc·Rs |
| `Sensor.ReadNtc` | thermal_logic_pi/sensor.py:51-59 | None for a failed bus read, a zero voltage or a zero R∞; on success the returned Celsius value T satisfies (T + 273)·ln(Rt/R∞) = β with a positive ratio and a non-zero log; it fails only for those reasons |
| `Sensor.NtcFailsOutsideDivider` | thermal_logic_pi/sensor.py:53-59 | with positive supply, series resistor and R∞, a voltage at or above the supply or below zero gives Rt ≤ 0 and the read fails |
| `Sensor.NtcFailsAtRx` | thermal_logic_pi/sensor.py:55-59 | a thermistor exactly at R∞ makes the log 0 and the read fails |
| `Sensor.NtcRoundTrip` | thermal_logic_pi/sensor.py:44-56 | the voltage a thermistor at temperature T produces on the Beta curve reads back as exactly T, when ln undoes exp at that point |
| `Cycles.DefaultCycles` | main.py:32-36 | the default list is 4.0 °C for 20 s then 15.0 °C for 20 s |
| `Cycles.SplitFirst` | main.py:41 | splitting fails exactly when there is no separator; otherwise the text is the head, the separator and the rest, with no separator in the head |
| `Cycles.SplitFirstUnique` | main.py:41 | any decomposition at the first separator is the one the split returns |
| `Cycles.ParseEntry` | main.py:40-42 | an entry without ':' fails; otherwise it succeeds exactly when both halves around the first ':' parse, giving temperature and time in that order |
| `Cycles.ParseEntries` | main.py:38-47 | success exactly when every entry parses, then the same length and order; on failure the error is the invalid-cycle message of the first bad entry, all earlier ones good |
| `Cycles.ParseCycles` | main.py:31-47 | an empty list yields the default cycles; a non-empty list fails exactly when some entry fails, with the invalid-cycle message of the first bad entry, and otherwise yields one cycle per entry in the same order |
| `Cycles.FormatParseRoundTrip` | main.py:38-47 | a non-empty cycle list written as `TEMP:DURACAO` entries parses back to the same list, when each number written is free of ':' and read back by `float()` as itself |
| `Cycles.ParsesFourThirty` | main.py:41-42 | "4:30" parses to one 4.0 °C, 30.0 s cycle |
| `Cycles.RejectsMissingSeparator` | main.py:40-46 | an entry with no ':' fails with the message naming it and the TEMP:DURACAO format |
| `Cycles.SplitsAtFirstColonOnly` | main.py:41-46 | "4:30:5" is split into "4" and "30:5", so a non-numeric duration fails the whole list |
| `Cycles.AcceptsNegativeValues` | main.py:42 | negative temperatures and durations are accepted as parsed |
| `Cycles.BadEntryRejectsAll` | main.py:39-46 | one bad entry anywhere rejects the whole list; no partial list is returned |
| `Controller.NewController` | thermal_logic_pi/controller.py:24-50 | a new controller has an empty log and no last file path, the filter primed with the first reading, the NTC calibrated from the Beta constants, both actuators released and safe |
| `Controller.Tick` | thermal_logic_pi/controller.py:52-70 | one tick appends one row (tick timestamp, the thermocouple value after one filter step toward this tick's raw reading, cycle target, NTC reading or NaN, heater setpoint) and leaves that step as the filter state, then updates the Peltier toward the cycle target from the thermocouple, then the heater toward its setpoint from the NTC, then yields the status event with the same two readings |
| `Controller.RunTicks` | thermal_logic_pi/controller.py:64-71 | tick k of a cycle owns effects 4k to 4k + 3: its row (its timestamp, the filter after the cycle's first k + 1 raw readings, the cycle target, its NTC conversion, the heater setpoint), then the Peltier driven from that row, then the heater driven from that row, then the status event; the filter ends having read every raw value; the actuators end where executing those commands in order leaves them and stay safe |
| `Controller.RunCycle` | thermal_logic_pi/controller.py:61-73 | a cycle opens with its start event and closes with its end event; between them tick k owns effects 4k to 4k + 3 (its planned row, the Peltier drive from that row, the heater drive from that row, its status event); it hands the next cycle the filter that has read all its raw values, and leaves the actuators exactly where executing its effects in order leaves them |
| `Controller.RunCycles` | thermal_logic_pi/controller.py:78-79 | the cycles run in list order with one filter that is never reset (it ends having read every raw value of the run) and the calibration untouched; they keep both actuators safe and leave them where executing their effects in order leaves them |
| `Controller.Run` | thermal_logic_pi/controller.py:75-110 | a run starts with the start event, ends with Peltier off, heater off, the whole log persisted and the saved-file event; afterwards the heater is fully off and the Peltier quiet, and both are exactly where executing the run's effects in order leaves them (so the Peltier keeps the polarity of its last update, since `off()` does not touch the pins); the log grows by exactly the rows of this run; the sensor handed to a next run has its filter after every raw reading of this one and its calibration unchanged; the last file path is the one written |
| `Controller.RunFollowsSchedule` | thermal_logic_pi/controller.py:61-82 | the events follow the plan start, per cycle (start, one status per tick, end), saved; every row carries its tick's timestamp, its cycle's target and the heater setpoint; the row count is the total tick count; each status event reports the readings of the row just logged; row k holds the filter after the first k + 1 raw readings of the whole run (never reset between cycles) and the NTC conversion of the k-th voltage; the actuator commands are, per row in order, the Peltier toward the row's cycle target from its thermocouple reading and then the heater toward its setpoint from its NTC reading, and no others |
| `Controller.UnframeFrame` | thermal_logic_pi/controller.py:63 | an SSE frame `data: <message>\n\n` gives back its message |
| `Controller.Stream` | thermal_logic_pi/controller.py:62-77 | one yielded value per event: in SSE mode a frame of the event's message, otherwise None (the result of `print`) |

## Left out

- GPIO, SPI and I²C drivers: pins and PWM levels are record fields; the raw thermocouple value and the NTC voltage are tick inputs.
- `math.exp` / `math.log`: passed in as functions; nothing is assumed of them except where a lemma states it.
- IEEE floating point: values are exact reals; overflow, infinities and rounding are not modelled, and NaN is only modelled as the missing NTC reading.
- The wall clock and `time.sleep(0.5)`: the ticks of each cycle are given, not derived from the cycle's duration and the elapsed time.
- Controller.Run: does not state the `elapsed <= duration` bound on the number of ticks or any minimum sample count, because the clock is an input.
- Sensor.Calibrate: requires T0 ≠ 0, because `ntc_t0_k = 0` makes the constructor raise an uncaught `ZeroDivisionError` (thermal_logic_pi/sensor.py:44); the model has no construction failure, and `Controller.NewController` inherits the requirement.
- Sensor.ConstantInputContracts: states the exact geometric gap after n readings, not convergence as a limit, which is outside what the model expresses.
- The laziness of the generator: a consumer that stops pulling early is not modelled; the model produces the whole run.
- CSV writing, the `:.2f` table formatting, `os.makedirs`, the datetime/uuid file name and the matplotlib plot: the run records a `Persist` effect carrying the rows, and the file name is a parameter.
- The NTC error message printed in `read_ntc`'s exception handler, and all printing in plain mode.
- `argparse` and `main()`; thermal_logic_pi/pin_config.py constants (smoothing factor, Peltier neutral zone, Beta-curve constants) are parameters. The heater's 0.5 °C band is hard-coded in its class and is a constant here.
- The exact grammar of Python's `float()` and the text produced by `str(float)`.

=== FILE: controller.dfy ===
/** Run orchestration (`TemperatureController`): the per-tick sampling and
    actuation, the per-cycle framing, the final shutdown and the event stream.
    The wall clock is abstracted away: each cycle receives the list of ticks
    the `elapsed <= duration` loop admitted, each tick carrying the timestamp
    the log row gets and the two hardware readings. The lazy generator is
    modelled by the complete, ordered list of what the run does. */
module Controller {
  import opened Wrappers
  import opened Cycles
  import Heater
  import Peltier
  import Sensor

  // ---------------------------------------------------------------------------
  // Data
  // ---------------------------------------------------------------------------

  /** One log row in the column order of the output table: elapsed seconds
      since the controller was built, thermocouple reading, Peltier target,
      NTC reading (None where the source stores NaN) and heater target. */
  datatype Row = Row(
    time: real,
    tempPeltier: real,
    targetPeltier: real,
    tempHeater: Option<real>,
    targetHeater: real)

  /** The status messages the run yields, before rendering. */
  datatype Event =
    | RunStarted
    | CycleStarted(temperature: real, duration: real)
    | Sampled(peltierTemp: real, heaterTemp: Option<real>)
    | CycleEnded(temperature: real)
    | FileSaved(path: string)

  /** Everything a run does, in order: the events it yields and its effects on
      the log, the two actuators and the output file. */
  datatype Effect =
    | Emit(event: Event)
    | Record(row: Row)
    | DrivePeltier(setpoint: real, measured: real)
    | DriveHeater(setpoint: real, reading: Option<real>)
    | SwitchOffPeltier
    | SwitchOffHeater
    | Persist(rows: seq<Row>)

  /** What one tick gets from the outside world: the log timestamp, the raw
      thermocouple value and the divider voltage (None when the bus read
      raised). */
  datatype TickInput = TickInput(now: real, rawThermocouple: real, ntcVoltage: Option<real>)

  /** The hardware-facing state the controller owns. */
  datatype Rig = Rig(
    thermocouple: Sensor.Thermocouple,
    ntc: Sensor.NtcCalibration,
    peltier: Peltier.PeltierState,
    heater: Heater.HeaterState)

  /** The controller object: heater setpoint, cycle list, rig, the rows
      logged so far and the path of the last file written (None before the
      first run). */
  datatype Controller = Controller(
    heatTemp: real,
    cycles: seq<TemperatureCycle>,
    rig: Rig,
    data: seq<Row>,
    lastPath: Option<string>)

  /** Neither actuator ever drives both bridge inputs, and all levels are 0 or 1. */
  predicate Safe(rig: Rig) {
    Heater.Valid(rig.heater) && Peltier.Valid(rig.peltier)
  }

  // ---------------------------------------------------------------------------
  // Projections of the effect list
  // ---------------------------------------------------------------------------

  /** The events a consumer of the generator sees, in order. */
  function Events(effects: seq<Effect>): seq<Event>
    decreases |effects|
  {
    if |effects| == 0 then []
    else (if effects[0].Emit? then [effects[0].event] else []) + Events(effects[1..])
  }

  /** The rows appended to the log, in order. */
  function Log(effects: seq<Effect>): seq<Row>
    decreases |effects|
  {
    if |effects| == 0 then []
    else (if effects[0].Record? then [effects[0].row] else []) + Log(effects[1..])
  }

  /** The actuator commands issued, in order. */
  function Drives(effects: seq<Effect>): seq<Effect>
    decreases |effects|
  {
    if |effects| == 0 then []
    else (if effects[0].DrivePeltier? || effects[0].DriveHeater? then [effects[0]] else [])
         + Drives(effects[1..])
  }

  lemma {:induction false} DrivesAppend(a: seq<Effect>, b: seq<Effect>)
    ensures Drives(a + b) == Drives(a) + Drives(b)
    decreases |a|
  {
    if |a| == 0 {
      assert a + b == b;
    } else {
      assert (a + b)[0] == a[0];
      assert (a + b)[1..] == a[1..] + b;
      DrivesAppend(a[1..], b);
      var head := if a[0].DrivePeltier? || a[0].DriveHeater? then [a[0]] else [];
      assert Drives(a + b) == head + Drives(a[1..] + b);
      assert Drives(a) == head + Drives(a[1..]);
    }
  }

  // ---------------------------------------------------------------------------
  // Executing the effects on the actuators
  // ---------------------------------------------------------------------------

  /** The two actuators of the rig. */
  datatype Actuators = Actuators(peltier: Peltier.PeltierState, heater: Heater.HeaterState)

  function Outputs(rig: Rig): Actuators {
    Actuators(rig.peltier, rig.heater)
  }

  /** What one effect does to the actuators: a drive command is that
      controller's `update`, a switch-off its `off()`; nothing else touches
      them. */
  function Actuate(a: Actuators, e: Effect): Actuators {
    match e
    case DrivePeltier(setpoint, measured) => a.(peltier := Peltier.Update(a.peltier, setpoint, measured))
    case DriveHeater(setpoint, reading) => a.(heater := Heater.Update(a.heater, setpoint, reading))
    case SwitchOffPeltier => a.(peltier := Peltier.Off(a.peltier))
    case SwitchOffHeater => a.(heater := Heater.Off(a.heater))
    case _ => a
  }

  /** The actuators after executing an effect list in order. */
  function Replay(a: Actuators, effects: seq<Effect>): Actuators
    decreases |effects|
  {
    if |effects| == 0 then a else Replay(Actuate(a, effects[0]), effects[1..])
  }

  lemma {:induction false} ReplayAppend(a: Actuators, xs: seq<Effect>, ys: seq<Effect>)
    ensures Replay(a, xs + ys) == Replay(Replay(a, xs), ys)
    decreases |xs|
  {
    if |xs| == 0 {
      assert xs + ys == ys;
    } else {
      assert (xs + ys)[0] == xs[0];
      assert (xs + ys)[1..] == xs[1..] + ys;
      ReplayAppend(Actuate(a, xs[0]), xs[1..], ys);
    }
  }

  lemma ReplaySingle(a: Actuators, e: Effect)
    ensures Replay(a, [e]) == Actuate(a, e)
  {
    assert [e][1..] == [];
  }

  lemma {:induction false} EventsAppend(a: seq<Effect>, b: seq<Effect>)
    ensures Events(a + b) == Events(a) + Events(b)
    decreases |a|
  {
    if |a| == 0 {
      assert a + b == b;
    } else {
      assert (a + b)[0] == a[0];
      assert (a + b)[1..] == a[1..] + b;
      EventsAppend(a[1..], b);
      var head := if a[0].Emit? then [a[0].event] else [];
      assert Events(a + b) == head + Events(a[1..] + b);
      assert Events(a) == head + Events(a[1..]);
    }
  }

  lemma {:induction false} LogAppend(a: seq<Effect>, b: seq<Effect>)
    ensures Log(a + b) == Log(a) + Log(b)
    decreases |a|
  {
    if |a| == 0 {
      assert a + b == b;
    } else {
      assert (a + b)[0] == a[0];
      assert (a + b)[1..] == a[1..] + b;
      LogAppend(a[1..], b);
      var head := if a[0].Record? then [a[0].row] else [];
      assert Log(a + b) == head + Log(a[1..] + b);
      assert Log(a) == head + Log(a[1..]);
    }
  }

  lemma {:induction false} NoRecordsNoRows(effects: seq<Effect>)
    requires forall i :: 0 <= i < |effects| ==> !effects[i].Record?
    ensures Log(effects) == []
    decreases |effects|
  {
    if |effects| > 0 {
      NoRecordsNoRows(effects[1..]);
    }
  }

  // ---------------------------------------------------------------------------
  // Construction
  // ---------------------------------------------------------------------------

  /** `__init__`: the sensor (filter primed with the first raw reading, NTC
      calibrated from the Beta constants), both actuators released, and an
      empty log. The sensor's constructor divides by T0, so T0 must not be 0. */
  function NewController(heatTemp: real, cycles: seq<TemperatureCycle>, alpha: real, firstRaw: real,
                         beta: real, r0: real, t0: real, vcc: real, seriesResistor: real,
                         exp: real -> real, neutralZone: real): (c: Controller)
    requires t0 != 0.0
    ensures c.heatTemp == heatTemp && c.cycles == cycles
    ensures c.data == [] && c.lastPath == None
    ensures c.rig.thermocouple.alpha == alpha && c.rig.thermocouple.filtered == firstRaw
    ensures c.rig.ntc.beta == beta && c.rig.ntc.r0 == r0 && c.rig.ntc.t0 == t0
    ensures c.rig.ntc.vcc == vcc && c.rig.ntc.seriesResistor == seriesResistor
    ensures c.rig.ntc == Sensor.Calibrate(beta, r0, t0, vcc, seriesResistor, exp)
    ensures Heater.Idle(c.rig.heater)
    ensures Peltier.Quiet(c.rig.peltier) && !c.rig.peltier.ctrl1 && !c.rig.peltier.ctrl2
    ensures c.rig.peltier.neutralZone == neutralZone
    ensures Safe(c.rig)
  {
    Controller(heatTemp, cycles,
               Rig(Sensor.OpenThermocouple(alpha, firstRaw),
                   Sensor.Calibrate(beta, r0, t0, vcc, seriesResistor, exp),
                   Peltier.Init(neutralZone), Heater.Init()),
               [], None)
  }

  // ---------------------------------------------------------------------------
  // One tick, one cycle, the whole run
  // ---------------------------------------------------------------------------

  /** One pass of the sampling loop: `_log` (read both channels, append the
      row), then the Peltier toward the cycle target from the thermocouple,
      then the heater toward its setpoint from the NTC, then the status event. */
  function Tick(rig: Rig, ln: real -> real, heatTemp: real, cycleTemp: real, t: TickInput):
    (r: (Rig, seq<Effect>))
    ensures |r.1| == 4 && r.1[0].Record?
    ensures r.1[0].row.time == t.now
    ensures r.1[0].row.targetPeltier == cycleTemp && r.1[0].row.targetHeater == heatTemp
    // The thermocouple column is the smoothed value: one filter step toward
    // this tick's raw reading, which also becomes the new filter state.
    ensures r.0.thermocouple == Sensor.ReadThermocouple(rig.thermocouple, t.rawThermocouple).0
    ensures r.1[0].row.tempPeltier == r.0.thermocouple.filtered
    ensures r.1[0].row.tempPeltier - t.rawThermocouple ==
              (1.0 - rig.thermocouple.alpha) * (rig.thermocouple.filtered - t.rawThermocouple)
    ensures r.1[0].row.tempHeater == Sensor.ReadNtc(rig.ntc, t.ntcVoltage, ln)
    ensures r.1[1] == DrivePeltier(cycleTemp, r.1[0].row.tempPeltier)
    ensures r.1[2] == DriveHeater(heatTemp, r.1[0].row.tempHeater)
    ensures r.1[3] == Emit(Sampled(r.1[0].row.tempPeltier, r.1[0].row.tempHeater))
    ensures r.0.peltier == Peltier.Update(rig.peltier, cycleTemp, r.1[0].row.tempPeltier)
    ensures r.0.heater == Heater.Update(rig.heater, heatTemp, r.1[0].row.tempHeater)
    ensures r.0.ntc == rig.ntc && r.0.thermocouple.alpha == rig.thermocouple.alpha
    ensures Replay(Outputs(rig), r.1) == Outputs(r.0)
    ensures Safe(rig) ==> Safe(r.0)
  {
    var (tc, tcTemp) := Sensor.ReadThermocouple(rig.thermocouple, t.rawThermocouple);
    var ntcTemp := Sensor.ReadNtc(rig.ntc, t.ntcVoltage, ln);
    var row := Row(t.now, tcTemp, cycleTemp, ntcTemp, heatTemp);
    var peltier := Peltier.Update(rig.peltier, cycleTemp, tcTemp);
    var heater := Heater.Update(rig.heater, heatTemp, ntcTemp);
    var effects := [Record(row), DrivePeltier(cycleTemp, tcTemp), DriveHeater(heatTemp, ntcTemp),
                    Emit(Sampled(tcTemp, ntcTemp))];
    TickReplay(Outputs(rig), effects);
    (Rig(tc, rig.ntc, peltier, heater), effects)
  }

  /** Replaying four effects is actuating them one after another. */
  lemma TickReplay(a: Actuators, effects: seq<Effect>)
    requires |effects| == 4
    ensures Replay(a, effects) ==
            Actuate(Actuate(Actuate(Actuate(a, effects[0]), effects[1]), effects[2]), effects[3])
  {
    assert effects == [effects[0]] + [effects[1]] + [effects[2]] + [effects[3]];
    ReplayAppend(a, [effects[0]] + [effects[1]] + [effects[2]], [effects[3]]);
    ReplayAppend(a, [effects[0]] + [effects[1]], [effects[2]]);
    ReplayAppend(a, [effects[0]], [effects[1]]);
    var a1 := Actuate(a, effects[0]);
    var a2 := Actuate(a1, effects[1]);
    var a3 := Actuate(a2, effects[2]);
    ReplaySingle(a, effects[0]);
    ReplaySingle(a1, effects[1]);
    ReplaySingle(a2, effects[2]);
    ReplaySingle(a3, effects[3]);
  }

  /** The ticks of one cycle, first to last. */
  function RunTicks(rig: Rig, ln: real -> real, heatTemp: real, cycleTemp: real,
                    ticks: seq<TickInput>): (r: (Rig, seq<Effect>))
    ensures |r.1| == 4 * |ticks|
    // Tick k owns effects 4k to 4k + 3: its planned row, then both drives
    // from that row, then the status event.
    ensures forall k :: 0 <= k < |ticks| ==>
              SlotHolds(r.1, k, PlannedRow(rig.thermocouple, rig.ntc, ln, heatTemp, cycleTemp, ticks, k))
    // The filter has taken in every raw reading of the cycle.
    ensures r.0.thermocouple == Sensor.Smooth(rig.thermocouple, Raws(ticks))
    ensures r.0.ntc == rig.ntc
    // The actuators end where executing the cycle's commands leaves them.
    ensures Replay(Outputs(rig), r.1) == Outputs(r.0)
    ensures Safe(rig) ==> Safe(r.0)
    decreases |ticks|
  {
    if |ticks| == 0 then (rig, [])
    else
      var (rig1, first) := Tick(rig, ln, heatTemp, cycleTemp, ticks[0]);
      var (rig2, rest) := RunTicks(rig1, ln, heatTemp, cycleTemp, ticks[1..]);
      SlotsShift(rig, ln, heatTemp, cycleTemp, ticks, rest);
      ReplayAppend(Outputs(rig), first, rest);
      RawsSplit(ticks);
      Sensor.TraceSingle(rig.thermocouple, ticks[0].rawThermocouple);
      Sensor.SmoothAppend(rig.thermocouple, [ticks[0].rawThermocouple], Raws(ticks[1..]));
      (rig2, first + rest)
  }

  /** The raw thermocouple values of a list of ticks. */
  function Raws(ticks: seq<TickInput>): (raws: seq<real>)
    ensures |raws| == |ticks|
  {
    seq(|ticks|, i requires 0 <= i < |ticks| => ticks[i].rawThermocouple)
  }

  lemma RawsAppend(a: seq<TickInput>, b: seq<TickInput>)
    ensures Raws(a + b) == Raws(a) + Raws(b)
  {
  }

  lemma RawsSplit(ticks: seq<TickInput>)
    requires |ticks| > 0
    ensures Raws(ticks) == [ticks[0].rawThermocouple] + Raws(ticks[1..])
    ensures Raws([ticks[0]]) == [ticks[0].rawThermocouple]
  {
    RawsAppend([ticks[0]], ticks[1..]);
    assert [ticks[0]] + ticks[1..] == ticks;
  }

  /** The sensor columns the ticks must log, from the tick inputs alone: the
      filter after the first k + 1 raw readings, and the NTC conversion of the
      k-th voltage. */
  function PlannedReadings(tc: Sensor.Thermocouple, ntc: Sensor.NtcCalibration, ln: real -> real,
                           ticks: seq<TickInput>): (rs: seq<(real, Option<real>)>)
    ensures |rs| == |ticks|
  {
    var trace := Sensor.Trace(tc, Raws(ticks));
    seq(|ticks|, k requires 0 <= k < |ticks| =>
          (trace[k], Sensor.ReadNtc(ntc, ticks[k].ntcVoltage, ln)))
  }

  /** Consecutive tick lists: the second starts from the filter the first
      left behind. */
  lemma PlannedReadingsAppend(tc: Sensor.Thermocouple, ntc: Sensor.NtcCalibration, ln: real -> real,
                              a: seq<TickInput>, b: seq<TickInput>)
    ensures PlannedReadings(tc, ntc, ln, a + b) ==
            PlannedReadings(tc, ntc, ln, a) + PlannedReadings(Sensor.Smooth(tc, Raws(a)), ntc, ln, b)
  {
    RawsAppend(a, b);
    Sensor.TraceAppend(tc, Raws(a), Raws(b));
    var lhs := PlannedReadings(tc, ntc, ln, a + b);
    var rhs := PlannedReadings(tc, ntc, ln, a) + PlannedReadings(Sensor.Smooth(tc, Raws(a)), ntc, ln, b);
    forall k | 0 <= k < |a + b|
      ensures lhs[k] == rhs[k]
    {
      if k >= |a| {
        assert (a + b)[k] == b[k - |a|];
      }
    }
  }

  /** The row the k-th tick of a cycle must log. */
  function PlannedRow(tc: Sensor.Thermocouple, ntc: Sensor.NtcCalibration, ln: real -> real,
                      heatTemp: real, cycleTemp: real, ticks: seq<TickInput>, k: nat): Row
    requires k < |ticks|
  {
    var reading := PlannedReadings(tc, ntc, ln, ticks)[k];
    Row(ticks[k].now, reading.0, cycleTemp, reading.1, heatTemp)
  }

  /** Effects 4k to 4k + 3 belong to one tick: the row, the Peltier driven
      toward the row's target from its thermocouple column, the heater toward
      its setpoint from its NTC column, and the status event reporting both. */
  predicate SlotHolds(effects: seq<Effect>, k: nat, row: Row) {
    && 4 * k + 4 <= |effects|
    && effects[4 * k] == Record(row)
    && effects[4 * k + 1] == DrivePeltier(row.targetPeltier, row.tempPeltier)
    && effects[4 * k + 2] == DriveHeater(row.targetHeater, row.tempHeater)
    && effects[4 * k + 3] == Emit(Sampled(row.tempPeltier, row.tempHeater))
  }

  /** The first tick fills slot 0 and the slots of the later ticks move up by
      one behind it. */
  lemma SlotsShift(rig: Rig, ln: real -> real, heatTemp: real, cycleTemp: real,
                   ticks: seq<TickInput>, rest: seq<Effect>)
    requires |ticks| > 0
    requires var rig1 := Tick(rig, ln, heatTemp, cycleTemp, ticks[0]).0;
             forall j :: 0 <= j < |ticks| - 1 ==>
               SlotHolds(rest, j, PlannedRow(rig1.thermocouple, rig1.ntc, ln, heatTemp, cycleTemp, ticks[1..], j))
    ensures var first := Tick(rig, ln, heatTemp, cycleTemp, ticks[0]).1;
            forall k :: 0 <= k < |ticks| ==>
              SlotHolds(first + rest, k, PlannedRow(rig.thermocouple, rig.ntc, ln, heatTemp, cycleTemp, ticks, k))
  {
    var (rig1, first) := Tick(rig, ln, heatTemp, cycleTemp, ticks[0]);
    var raw0 := ticks[0].rawThermocouple;
    RawsSplit(ticks);
    Sensor.TraceSingle(rig.thermocouple, raw0);
    assert [ticks[0]] + ticks[1..] == ticks;
    PlannedReadingsAppend(rig.thermocouple, rig.ntc, ln, [ticks[0]], ticks[1..]);
    var all := PlannedReadings(rig.thermocouple, rig.ntc, ln, ticks);
    var later := PlannedReadings(rig1.thermocouple, rig.ntc, ln, ticks[1..]);
    assert all == PlannedReadings(rig.thermocouple, rig.ntc, ln, [ticks[0]]) + later;
    forall k | 0 <= k < |ticks|
      ensures SlotHolds(first + rest, k, PlannedRow(rig.thermocouple, rig.ntc, ln, heatTemp, cycleTemp, ticks, k))
    {
      if k == 0 {
        assert Sensor.Trace(rig.thermocouple, Raws([ticks[0]])) == [Sensor.ReadThermocouple(rig.thermocouple, raw0).1];
        assert all[0] == (first[0].row.tempPeltier, first[0].row.tempHeater);
      } else {
        assert all[k] == later[k - 1];
        assert ticks[k] == ticks[1..][k - 1];
        assert SlotHolds(rest, k - 1, PlannedRow(rig1.thermocouple, rig1.ntc, ln, heatTemp, cycleTemp, ticks[1..], k - 1));
        assert 4 * k == 4 + 4 * (k - 1);
      }
    }
  }

  /** `_run_cycle`: the start event, the ticks, the end event. */
  function RunCycle(rig: Rig, ln: real -> real, heatTemp: real, cycle: TemperatureCycle,
                    ticks: seq<TickInput>): (r: (Rig, seq<Effect>))
    ensures |r.1| == 4 * |ticks| + 2
    ensures r.1[0] == Emit(CycleStarted(cycle.temperature, cycle.time))
    ensures r.1[|r.1| - 1] == Emit(CycleEnded(cycle.temperature))
    // Between the two events, tick k owns effects 4k to 4k + 3 as in RunTicks.
    ensures forall k :: 0 <= k < |ticks| ==>
              SlotHolds(r.1[1..|r.1| - 1], k,
                        PlannedRow(rig.thermocouple, rig.ntc, ln, heatTemp, cycle.temperature, ticks, k))
    ensures r.0.thermocouple == Sensor.Smooth(rig.thermocouple, Raws(ticks))
    ensures r.0.ntc == rig.ntc
    ensures Replay(Outputs(rig), r.1) == Outputs(r.0)
    ensures Safe(rig) ==> Safe(r.0)
  {
    var (rig1, body) := RunTicks(rig, ln, heatTemp, cycle.temperature, ticks);
    var open := [Emit(CycleStarted(cycle.temperature, cycle.time))];
    var close := [Emit(CycleEnded(cycle.temperature))];
    var effects := open + body + close;
    assert effects[1..|effects| - 1] == body;
    ReplayAppend(Outputs(rig), open + body, close);
    ReplayAppend(Outputs(rig), open, body);
    ReplaySingle(Outputs(rig), open[0]);
    ReplaySingle(Outputs(rig1), close[0]);
    (rig1, effects)
  }

  /** The `for cycle in self.cycles` loop of `run`. */
  function RunCycles(rig: Rig, ln: real -> real, heatTemp: real, cycles: seq<TemperatureCycle>,
                     ticks: seq<seq<TickInput>>): (r: (Rig, seq<Effect>))
    requires |ticks| == |cycles|
    // The filter runs on across cycles: it has read every raw value of the
    // run, in order, and the calibration is untouched.
    ensures r.0.thermocouple == Sensor.Smooth(rig.thermocouple, Raws(AllTicks(ticks)))
    ensures r.0.ntc == rig.ntc
    ensures Replay(Outputs(rig), r.1) == Outputs(r.0)
    ensures Safe(rig) ==> Safe(r.0)
    decreases |cycles|
  {
    if |cycles| == 0 then (rig, [])
    else
      var (rig1, first) := RunCycle(rig, ln, heatTemp, cycles[0], ticks[0]);
      var (rig2, rest) := RunCycles(rig1, ln, heatTemp, cycles[1..], ticks[1..]);
      ReplayAppend(Outputs(rig), first, rest);
      RawsAppend(ticks[0], AllTicks(ticks[1..]));
      Sensor.SmoothAppend(rig.thermocouple, Raws(ticks[0]), Raws(AllTicks(ticks[1..])));
      (rig2, first + rest)
  }

  /** `run`: start event, every cycle in order, both actuators off, the log
      written out, the saved-file event. `ticks[i]` are the ticks of cycle i;
      `path` stands for the generated file name. The log is never cleared by a
      run, so the file holds every row since construction. */
  function Run(c: Controller, ticks: seq<seq<TickInput>>, ln: real -> real, path: string):
    (r: (Controller, seq<Effect>))
    requires |ticks| == |c.cycles|
    ensures r.0.heatTemp == c.heatTemp && r.0.cycles == c.cycles
    ensures r.0.data == c.data + Log(r.1)
    ensures |r.1| >= 5 && r.1[0] == Emit(RunStarted)
    // Shutdown comes after the last cycle and before anything is written.
    ensures r.1[|r.1| - 4..] ==
              [SwitchOffPeltier, SwitchOffHeater, Persist(r.0.data), Emit(FileSaved(path))]
    ensures Heater.Idle(r.0.rig.heater)
    ensures Peltier.Quiet(r.0.rig.peltier)
    // Both actuators end exactly where executing the run's effects in order
    // leaves them; the last commands are the two switch-offs, so the Peltier
    // keeps the polarity its last update chose.
    ensures Replay(Outputs(c.rig), r.1) == Outputs(r.0.rig)
    // The sensor handed to a next run: the filter has read every raw value of
    // this one, and the calibration is the one computed at construction.
    ensures r.0.rig.thermocouple == Sensor.Smooth(c.rig.thermocouple, Raws(AllTicks(ticks)))
    ensures r.0.rig.ntc == c.rig.ntc
    // The path is recorded before the file is written.
    ensures r.0.lastPath == Some(path)
    ensures Safe(c.rig) ==> Safe(r.0.rig)
  {
    var (rig1, body) := RunCycles(c.rig, ln, c.heatTemp, c.cycles, ticks);
    var rig2 := rig1.(peltier := Peltier.Off(rig1.peltier), heater := Heater.Off(rig1.heater));
    var data := c.data + Log(body);
    var tail := [SwitchOffPeltier, SwitchOffHeater, Persist(data), Emit(FileSaved(path))];
    FramingKeepsLog(body, data, path);
    RunReplay(Outputs(c.rig), body, data, path);
    (c.(rig := rig2, data := data, lastPath := Some(path)), [Emit(RunStarted)] + body + tail)
  }

  /** The opening event commands nothing; the closing four switch the
      Peltier off, then the heater, and nothing after that. */
  lemma RunReplay(a: Actuators, body: seq<Effect>, data: seq<Row>, path: string)
    ensures var tail := [SwitchOffPeltier, SwitchOffHeater, Persist(data), Emit(FileSaved(path))];
            var b := Replay(a, body);
            Replay(a, [Emit(RunStarted)] + body + tail) ==
              Actuators(Peltier.Off(b.peltier), Heater.Off(b.heater))
  {
    var tail := [SwitchOffPeltier, SwitchOffHeater, Persist(data), Emit(FileSaved(path))];
    ReplayAppend(a, [Emit(RunStarted)] + body, tail);
    ReplayAppend(a, [Emit(RunStarted)], body);
    ReplaySingle(a, Emit(RunStarted));
    TickReplay(Replay(a, body), tail);
  }

  /** The run's opening and closing effects add no rows, and the closing four
      are the last effects of the run. */
  lemma FramingKeepsLog(body: seq<Effect>, data: seq<Row>, path: string)
    ensures var tail := [SwitchOffPeltier, SwitchOffHeater, Persist(data), Emit(FileSaved(path))];
            var all := [Emit(RunStarted)] + body + tail;
            && Log(all) == Log(body)
            && all[|all| - 4..] == tail
  {
    var tail := [SwitchOffPeltier, SwitchOffHeater, Persist(data), Emit(FileSaved(path))];
    LogAppend([Emit(RunStarted)] + body, tail);
    LogAppend([Emit(RunStarted)], body);
    NoRecordsNoRows(tail);
    NoRecordsNoRows([Emit(RunStarted)]);
  }

  // ---------------------------------------------------------------------------
  // Reference plan of a run, from the cycle list and the tick inputs alone
  // ---------------------------------------------------------------------------

  /** What kind of event was yielded, forgetting the measured values. */
  datatype Milestone =
    | Start
    | Begin(temperature: real, duration: real)
    | Beat
    | End(temperature: real)
    | Saved

  function Kind(e: Event): Milestone {
    match e
    case RunStarted => Start
    case CycleStarted(t, d) => Begin(t, d)
    case Sampled(_, _) => Beat
    case CycleEnded(t) => End(t)
    case FileSaved(_) => Saved
  }

  function Kinds(es: seq<Event>): (ms: seq<Milestone>)
    ensures |ms| == |es|
  {
    seq(|es|, i requires 0 <= i < |es| => Kind(es[i]))
  }

  function Beats(n: nat): (ms: seq<Milestone>)
    ensures |ms| == n
  {
    seq(n, _ => Beat)
  }

  /** Per cycle, in list order: its start, one beat per tick, its end. */
  function CyclePlan(cycles: seq<TemperatureCycle>, ticks: seq<seq<TickInput>>): seq<Milestone>
    requires |ticks| == |cycles|
    decreases |cycles|
  {
    if |cycles| == 0 then []
    else [Begin(cycles[0].temperature, cycles[0].time)] + Beats(|ticks[0]|)
         + [End(cycles[0].temperature)] + CyclePlan(cycles[1..], ticks[1..])
  }

  /** The whole run: the start message, the cycles, the saved-file message. */
  function Schedule(cycles: seq<TemperatureCycle>, ticks: seq<seq<TickInput>>): seq<Milestone>
    requires |ticks| == |cycles|
  {
    [Start] + CyclePlan(cycles, ticks) + [Saved]
  }

  /** The time and target columns of a row. */
  function Stamp(row: Row): (real, real, real) {
    (row.time, row.targetPeltier, row.targetHeater)
  }

  function Stamps(rows: seq<Row>): (ss: seq<(real, real, real)>)
    ensures |ss| == |rows|
  {
    seq(|rows|, i requires 0 <= i < |rows| => Stamp(rows[i]))
  }

  /** The stamps the ticks of one cycle should leave: each tick's own
      timestamp, the cycle's temperature and the heater setpoint. */
  function TickStamps(ticks: seq<TickInput>, cycleTemp: real, heatTemp: real):
    (ss: seq<(real, real, real)>)
    ensures |ss| == |ticks|
  {
    seq(|ticks|, i requires 0 <= i < |ticks| => (ticks[i].now, cycleTemp, heatTemp))
  }

  function PlannedStamps(cycles: seq<TemperatureCycle>, ticks: seq<seq<TickInput>>,
                         heatTemp: real): (ss: seq<(real, real, real)>)
    requires |ticks| == |cycles|
    ensures |ss| == TotalTicks(ticks)
    decreases |cycles|
  {
    if |cycles| == 0 then []
    else TickStamps(ticks[0], cycles[0].temperature, heatTemp)
         + PlannedStamps(cycles[1..], ticks[1..], heatTemp)
  }

  function TotalTicks(ticks: seq<seq<TickInput>>): nat
    decreases |ticks|
  {
    if |ticks| == 0 then 0 else |ticks[0]| + TotalTicks(ticks[1..])
  }

  /** The ticks of every cycle, in run order. */
  function AllTicks(ticks: seq<seq<TickInput>>): seq<TickInput>
    decreases |ticks|
  {
    if |ticks| == 0 then [] else ticks[0] + AllTicks(ticks[1..])
  }

  /** The values a status event reports. */
  function Reports(es: seq<Event>): seq<(real, Option<real>)>
    decreases |es|
  {
    if |es| == 0 then []
    else (if es[0].Sampled? then [(es[0].peltierTemp, es[0].heaterTemp)] else [])
         + Reports(es[1..])
  }

  /** The sensor columns of a row. */
  function Readings(rows: seq<Row>): (rs: seq<(real, Option<real>)>)
    ensures |rs| == |rows|
  {
    seq(|rows|, i requires 0 <= i < |rows| => (rows[i].tempPeltier, rows[i].tempHeater))
  }

  lemma KindsAppend(a: seq<Event>, b: seq<Event>)
    ensures Kinds(a + b) == Kinds(a) + Kinds(b)
  {
  }

  lemma StampsAppend(a: seq<Row>, b: seq<Row>)
    ensures Stamps(a + b) == Stamps(a) + Stamps(b)
  {
  }

  lemma ReadingsAppend(a: seq<Row>, b: seq<Row>)
    ensures Readings(a + b) == Readings(a) + Readings(b)
  {
  }

  lemma {:induction false} ReportsAppend(a: seq<Event>, b: seq<Event>)
    ensures Reports(a + b) == Reports(a) + Reports(b)
    decreases |a|
  {
    if |a| == 0 {
      assert a + b == b;
    } else {
      assert (a + b)[0] == a[0];
      assert (a + b)[1..] == a[1..] + b;
      ReportsAppend(a[1..], b);
      var head := if a[0].Sampled? then [(a[0].peltierTemp, a[0].heaterTemp)] else [];
      assert Reports(a + b) == head + Reports(a[1..] + b);
      assert Reports(a) == head + Reports(a[1..]);
    }
  }

  /** The commands the rows call for: per row, the Peltier toward the row's
      cycle target from its thermocouple reading, then the heater toward the
      row's setpoint from its NTC reading. */
  function Commands(stamps: seq<(real, real, real)>, readings: seq<(real, Option<real>)>): seq<Effect>
    requires |stamps| == |readings|
    decreases |stamps|
  {
    if |stamps| == 0 then []
    else [DrivePeltier(stamps[0].1, readings[0].0), DriveHeater(stamps[0].2, readings[0].1)]
         + Commands(stamps[1..], readings[1..])
  }

  lemma {:induction false} CommandsAppend(sa: seq<(real, real, real)>, ra: seq<(real, Option<real>)>,
                                          sb: seq<(real, real, real)>, rb: seq<(real, Option<real>)>)
    requires |sa| == |ra| && |sb| == |rb|
    ensures Commands(sa + sb, ra + rb) == Commands(sa, ra) + Commands(sb, rb)
    decreases |sa|
  {
    if |sa| == 0 {
      assert sa + sb == sb && ra + rb == rb;
    } else {
      assert (sa + sb)[1..] == sa[1..] + sb && (ra + rb)[1..] == ra[1..] + rb;
      CommandsAppend(sa[1..], ra[1..], sb, rb);
    }
  }

  /** Events, row stamps, sensor readings and actuator commands that an effect
      list contributes; the status events report the same readings the rows
      hold, and the commands are the ones those rows call for. */
  predicate Contributes(effects: seq<Effect>, kinds: seq<Milestone>, stamps: seq<(real, real, real)>,
                        readings: seq<(real, Option<real>)>) {
    && Kinds(Events(effects)) == kinds
    && Stamps(Log(effects)) == stamps
    && Readings(Log(effects)) == readings
    && Reports(Events(effects)) == readings
    && |stamps| == |readings|
    && Drives(effects) == Commands(stamps, readings)
  }

  /** Contributions of consecutive pieces concatenate. */
  lemma ContributesAppend(a: seq<Effect>, ka: seq<Milestone>, sa: seq<(real, real, real)>,
                          ra: seq<(real, Option<real>)>,
                          b: seq<Effect>, kb: seq<Milestone>, sb: seq<(real, real, real)>,
                          rb: seq<(real, Option<real>)>)
    requires Contributes(a, ka, sa, ra) && Contributes(b, kb, sb, rb)
    ensures Contributes(a + b, ka + kb, sa + sb, ra + rb)
  {
    EventsAppend(a, b);
    LogAppend(a, b);
    KindsAppend(Events(a), Events(b));
    StampsAppend(Log(a), Log(b));
    ReportsAppend(Events(a), Events(b));
    ReadingsAppend(Log(a), Log(b));
    DrivesAppend(a, b);
    CommandsAppend(sa, ra, sb, rb);
  }

  /** An effect list with one event and no row. */
  lemma SingleEvent(e: Event)
    requires !e.Sampled?
    ensures Contributes([Emit(e)], [Kind(e)], [], [])
  {
    assert Events([Emit(e)]) == [e];
    assert Log([Emit(e)]) == [];
    assert Reports([e]) == [] + Reports([]);
    assert Drives([Emit(e)]) == [];
  }

  lemma TickContributes(rig: Rig, ln: real -> real, heatTemp: real, cycleTemp: real, t: TickInput)
    ensures Contributes(Tick(rig, ln, heatTemp, cycleTemp, t).1, [Beat], [(t.now, cycleTemp, heatTemp)],
                        PlannedReadings(rig.thermocouple, rig.ntc, ln, [t]))
  {
    var effs := Tick(rig, ln, heatTemp, cycleTemp, t).1;
    var row := effs[0].row;
    assert effs == [effs[0]] + [effs[1]] + [effs[2]] + [effs[3]];
    assert Events(effs) == [Sampled(row.tempPeltier, row.tempHeater)] by {
      assert Events(effs[3..]) == [Sampled(row.tempPeltier, row.tempHeater)];
      assert Events(effs[2..]) == Events(effs[3..]);
      assert Events(effs[1..]) == Events(effs[2..]);
    }
    assert Drives(effs) == [effs[1], effs[2]] by {
      assert Drives(effs[3..]) == [];
      assert Drives(effs[2..]) == [effs[2]];
      assert Drives(effs[1..]) == [effs[1], effs[2]];
    }
    assert Commands([(t.now, cycleTemp, heatTemp)], [(row.tempPeltier, row.tempHeater)]) == [effs[1], effs[2]];
    assert Log(effs) == [row] by {
      assert Log(effs[3..]) == [];
      assert Log(effs[2..]) == [];
      assert Log(effs[1..]) == [];
    }
    var e := Sampled(row.tempPeltier, row.tempHeater);
    assert Reports([e]) == [(row.tempPeltier, row.tempHeater)] + Reports([]);
    assert Kinds([e]) == [Beat];
    assert Stamps([row]) == [(t.now, cycleTemp, heatTemp)];
    assert Readings([row]) == [(row.tempPeltier, row.tempHeater)];
    Sensor.TraceSingle(rig.thermocouple, t.rawThermocouple);
    assert Raws([t]) == [t.rawThermocouple];
    assert PlannedReadings(rig.thermocouple, rig.ntc, ln, [t]) == [(row.tempPeltier, row.tempHeater)];
  }

  lemma {:induction false} TicksContribute(rig: Rig, ln: real -> real, heatTemp: real, cycleTemp: real,
                                           ticks: seq<TickInput>)
    ensures Contributes(RunTicks(rig, ln, heatTemp, cycleTemp, ticks).1,
                        Beats(|ticks|), TickStamps(ticks, cycleTemp, heatTemp),
                        PlannedReadings(rig.thermocouple, rig.ntc, ln, ticks))
    decreases |ticks|
  {
    if |ticks| == 0 {
      assert Beats(0) == [];
      assert TickStamps(ticks, cycleTemp, heatTemp) == [];
      assert PlannedReadings(rig.thermocouple, rig.ntc, ln, ticks) == [];
    } else {
      var (rig1, first) := Tick(rig, ln, heatTemp, cycleTemp, ticks[0]);
      TickContributes(rig, ln, heatTemp, cycleTemp, ticks[0]);
      TicksContribute(rig1, ln, heatTemp, cycleTemp, ticks[1..]);
      ContributesAppend(first, [Beat], [(ticks[0].now, cycleTemp, heatTemp)],
                        PlannedReadings(rig.thermocouple, rig.ntc, ln, [ticks[0]]),
                        RunTicks(rig1, ln, heatTemp, cycleTemp, ticks[1..]).1,
                        Beats(|ticks| - 1), TickStamps(ticks[1..], cycleTemp, heatTemp),
                        PlannedReadings(rig1.thermocouple, rig.ntc, ln, ticks[1..]));
      RawsSplit(ticks);
      Sensor.TraceSingle(rig.thermocouple, ticks[0].rawThermocouple);
      assert [ticks[0]] + ticks[1..] == ticks;
      PlannedReadingsAppend(rig.thermocouple, rig.ntc, ln, [ticks[0]], ticks[1..]);
      assert [Beat] + Beats(|ticks| - 1) == Beats(|ticks|);
      assert [(ticks[0].now, cycleTemp, heatTemp)] + TickStamps(ticks[1..], cycleTemp, heatTemp)
             == TickStamps(ticks, cycleTemp, heatTemp);
    }
  }

  lemma CycleContributes(rig: Rig, ln: real -> real, heatTemp: real, cycle: TemperatureCycle,
                         ticks: seq<TickInput>)
    ensures Contributes(RunCycle(rig, ln, heatTemp, cycle, ticks).1,
                        [Begin(cycle.temperature, cycle.time)] + Beats(|ticks|) + [End(cycle.temperature)],
                        TickStamps(ticks, cycle.temperature, heatTemp),
                        PlannedReadings(rig.thermocouple, rig.ntc, ln, ticks))
  {
    var readings := PlannedReadings(rig.thermocouple, rig.ntc, ln, ticks);
    var body := RunTicks(rig, ln, heatTemp, cycle.temperature, ticks).1;
    var open := [Emit(CycleStarted(cycle.temperature, cycle.time))];
    var close := [Emit(CycleEnded(cycle.temperature))];
    SingleEvent(CycleStarted(cycle.temperature, cycle.time));
    SingleEvent(CycleEnded(cycle.temperature));
    TicksContribute(rig, ln, heatTemp, cycle.temperature, ticks);
    ContributesAppend(open, [Begin(cycle.temperature, cycle.time)], [], [],
                      body, Beats(|ticks|), TickStamps(ticks, cycle.temperature, heatTemp), readings);
    ContributesAppend(open + body, [Begin(cycle.temperature, cycle.time)] + Beats(|ticks|),
                      [] + TickStamps(ticks, cycle.temperature, heatTemp), [] + readings,
                      close, [End(cycle.temperature)], [], []);
    assert [] + TickStamps(ticks, cycle.temperature, heatTemp) + []
           == TickStamps(ticks, cycle.temperature, heatTemp);
    assert [] + readings + [] == readings;
  }

  lemma {:induction false} CyclesContribute(rig: Rig, ln: real -> real, heatTemp: real,
                                            cycles: seq<TemperatureCycle>, ticks: seq<seq<TickInput>>)
    requires |ticks| == |cycles|
    ensures Contributes(RunCycles(rig, ln, heatTemp, cycles, ticks).1,
                        CyclePlan(cycles, ticks), PlannedStamps(cycles, ticks, heatTemp),
                        PlannedReadings(rig.thermocouple, rig.ntc, ln, AllTicks(ticks)))
    decreases |cycles|
  {
    if |cycles| == 0 {
      assert PlannedReadings(rig.thermocouple, rig.ntc, ln, []) == [];
      assert Contributes([], [], [], []);
    } else {
      var (rig1, first) := RunCycle(rig, ln, heatTemp, cycles[0], ticks[0]);
      CycleContributes(rig, ln, heatTemp, cycles[0], ticks[0]);
      CyclesContribute(rig1, ln, heatTemp, cycles[1..], ticks[1..]);
      ContributesAppend(first,
                        [Begin(cycles[0].temperature, cycles[0].time)] + Beats(|ticks[0]|)
                        + [End(cycles[0].temperature)],
                        TickStamps(ticks[0], cycles[0].temperature, heatTemp),
                        PlannedReadings(rig.thermocouple, rig.ntc, ln, ticks[0]),
                        RunCycles(rig1, ln, heatTemp, cycles[1..], ticks[1..]).1,
                        CyclePlan(cycles[1..], ticks[1..]),
                        PlannedStamps(cycles[1..], ticks[1..], heatTemp),
                        PlannedReadings(rig1.thermocouple, rig1.ntc, ln, AllTicks(ticks[1..])));
      PlannedReadingsAppend(rig.thermocouple, rig.ntc, ln, ticks[0], AllTicks(ticks[1..]));
    }
  }

  /** The events of a run follow the plan: the start message; for each cycle in
      list order its start, one status event per tick and its end; then the
      saved-file message. */
  lemma RunFollowsSchedule(c: Controller, ticks: seq<seq<TickInput>>, ln: real -> real, path: string)
    requires |ticks| == |c.cycles|
    ensures Kinds(Events(Run(c, ticks, ln, path).1)) == Schedule(c.cycles, ticks)
    // Every row carries the timestamp of its tick, the target of the cycle
    // it was taken in and the heater setpoint; no row is dropped or added.
    ensures Stamps(Log(Run(c, ticks, ln, path).1)) == PlannedStamps(c.cycles, ticks, c.heatTemp)
    ensures |Log(Run(c, ticks, ln, path).1)| == TotalTicks(ticks)
    // Each status event reports exactly the readings of the row just logged.
    ensures Reports(Events(Run(c, ticks, ln, path).1)) == Readings(Log(Run(c, ticks, ln, path).1))
    // Row k holds the filter after the first k + 1 raw readings of the whole
    // run (the filter is never reset between cycles) and the NTC conversion
    // of the k-th voltage.
    ensures Readings(Log(Run(c, ticks, ln, path).1)) ==
            PlannedReadings(c.rig.thermocouple, c.rig.ntc, ln, AllTicks(ticks))
    // The actuator commands, in order, are per row the Peltier toward the
    // cycle target from the thermocouple reading and then the heater toward
    // its setpoint from the NTC reading; no other drive is issued.
    ensures Drives(Run(c, ticks, ln, path).1) ==
            Commands(PlannedStamps(c.cycles, ticks, c.heatTemp),
                     PlannedReadings(c.rig.thermocouple, c.rig.ntc, ln, AllTicks(ticks)))
  {
    var readings := PlannedReadings(c.rig.thermocouple, c.rig.ntc, ln, AllTicks(ticks));
    var (rig1, body) := RunCycles(c.rig, ln, c.heatTemp, c.cycles, ticks);
    var rig2 := rig1.(peltier := Peltier.Off(rig1.peltier), heater := Heater.Off(rig1.heater));
    var data := c.data + Log(body);
    var tail := [SwitchOffPeltier, SwitchOffHeater, Persist(data), Emit(FileSaved(path))];
    assert Run(c, ticks, ln, path).1 == [Emit(RunStarted)] + body + tail;
    CyclesContribute(c.rig, ln, c.heatTemp, c.cycles, ticks);
    SingleEvent(RunStarted);
    ContributesAppend([Emit(RunStarted)], [Start], [], [],
                      body, CyclePlan(c.cycles, ticks), PlannedStamps(c.cycles, ticks, c.heatTemp), readings);
    ClosingContributes(data, path);
    ContributesAppend([Emit(RunStarted)] + body, [Start] + CyclePlan(c.cycles, ticks),
                      [] + PlannedStamps(c.cycles, ticks, c.heatTemp), [] + readings,
                      tail, [Saved], [], []);
    assert [] + PlannedStamps(c.cycles, ticks, c.heatTemp) + [] == PlannedStamps(c.cycles, ticks, c.heatTemp);
    assert [] + readings + [] == readings;
  }

  /** The closing effects yield only the saved-file event and log nothing. */
  lemma ClosingContributes(data: seq<Row>, path: string)
    ensures Contributes([SwitchOffPeltier, SwitchOffHeater, Persist(data), Emit(FileSaved(path))],
                        [Saved], [], [])
  {
    var tail := [SwitchOffPeltier, SwitchOffHeater, Persist(data), Emit(FileSaved(path))];
    SingleEvent(FileSaved(path));
    var silent := [SwitchOffPeltier, SwitchOffHeater, Persist(data)];
    assert tail == silent + [Emit(FileSaved(path))];
    assert Events(silent) == [] by {
      assert Events(silent[1..]) == Events(silent[2..]);
    }
    assert Drives(silent) == [] by {
      assert Drives(silent[1..]) == Drives(silent[2..]);
    }
    NoRecordsNoRows(silent);
    assert Reports([]) == [];
    assert Contributes(silent, [], [], []);
    ContributesAppend(silent, [], [], [], [Emit(FileSaved(path))], [Saved], [], []);
  }

  // ---------------------------------------------------------------------------
  // Rendering of the yielded values
  // ---------------------------------------------------------------------------

  /** How the source turns numbers into text: `str(float)` in the cycle
      messages and the `:.2f` format in the status messages. */
  datatype Formats = Formats(str: real -> string, fixed2: real -> string)

  /** The text of each message; a missing NTC reading is NaN in the source and
      prints as "nan". */
  function Message(e: Event, fmt: Formats): string {
    match e
    case RunStarted => "[INFO] Iniciando controle t\U{E9}rmico"
    case CycleStarted(t, d) => "[INFO] Ciclo " + fmt.str(t) + "\U{B0}C por " + fmt.str(d) + "s"
    case Sampled(p, h) =>
      "Peltier=" + fmt.fixed2(p) + "C / Heater="
      + (match h case Some(x) => fmt.fixed2(x) case None => "nan") + "C"
    case CycleEnded(t) => "[INFO] Fim do ciclo " + fmt.str(t) + "\U{B0}C"
    case FileSaved(path) => "[INFO] Arquivo salvo: " + path
  }

  /** The server-sent-events frame around a message. */
  function Frame(message: string): string {
    "data: " + message + "\n\n"
  }

  /** Recovers the message from a frame; None for text that is not a frame. */
  function Unframe(s: string): Option<string> {
    if |s| >= 8 && s[..6] == "data: " && s[|s| - 2..] == "\n\n" then Some(s[6..|s| - 2]) else None
  }

  lemma UnframeFrame(message: string)
    ensures Unframe(Frame(message)) == Some(message)
  {
    var f := Frame(message);
    assert f[..6] == "data: ";
    assert f[|f| - 2..] == "\n\n";
    assert f[6..|f| - 2] == message;
  }

  /** The value the generator yields for one event: the frame in SSE mode,
      otherwise the result of `print`, which is None. */
  function Yielded(e: Event, sse: bool, fmt: Formats): Option<string> {
    if sse then Some(Frame(Message(e, fmt))) else None
  }

  /** The yielded values of a whole event list, one per event. */
  function Stream(events: seq<Event>, sse: bool, fmt: Formats): (out: seq<Option<string>>)
    ensures |out| == |events|
    ensures forall i :: 0 <= i < |events| ==> (out[i].Some? <==> sse)
    ensures forall i :: 0 <= i < |events| && sse ==>
              Unframe(out[i].value) == Some(Message(events[i], fmt))
  {
    forall m: string | true ensures Unframe(Frame(m)) == Some(m) { UnframeFrame(m); }
    seq(|events|, i requires 0 <= i < |events| => Yielded(events[i], sse, fmt))
  }
}

=== FILE: cycles.dfy ===
/** The cycle list of a run (`TemperatureCycle`) and the command-line parser
    that builds it from `TEMP:DURACAO` entries (`parse_cycles`). Python's
    `float()` is supplied as a partial function `parseFloat`; its exact grammar
    is not part of this model. */
module Cycles {
  import opened Wrappers

  /** One segment of a run: hold the Peltier at `temperature` (°C) for `time`
      seconds. */
  datatype TemperatureCycle = TemperatureCycle(temperature: real, time: real)

  /** The list used when no `--cycle` was given. */
  function DefaultCycles(): (cs: seq<TemperatureCycle>)
    ensures |cs| == 2
    ensures cs[0].temperature == 4.0 && cs[0].time == 20.0
    ensures cs[1].temperature == 15.0 && cs[1].time == 20.0
  {
    [TemperatureCycle(4.0, 20.0), TemperatureCycle(15.0, 20.0)]
  }

  /** `s.split(sep, 1)` reduced to the two-element case the caller unpacks:
      None when `sep` does not occur, otherwise the text before its first
      occurrence and everything after it. */
  function SplitFirst(s: string, sep: char): (r: Option<(string, string)>)
    ensures r.None? <==> sep !in s
    ensures r.Some? ==> s == r.value.0 + [sep] + r.value.1 && sep !in r.value.0
    decreases |s|
  {
    if |s| == 0 then None
    else if s[0] == sep then
      assert s == [] + [sep] + s[1..];
      Some(([], s[1..]))
    else
      match SplitFirst(s[1..], sep)
      case None => None
      case Some(parts) =>
        assert s == ([s[0]] + parts.0) + [sep] + parts.1;
        Some(([s[0]] + parts.0, parts.1))
  }

  /** A decomposition at a first occurrence is the one `SplitFirst` finds. */
  lemma {:induction false} SplitFirstUnique(s: string, sep: char, a: string, b: string)
    requires s == a + [sep] + b && sep !in a
    ensures SplitFirst(s, sep) == Some((a, b))
    decreases |a|
  {
    if |a| == 0 {
      assert s[0] == sep && s[1..] == b;
    } else {
      assert s[0] == a[0] && s[0] != sep;
      assert s[1..] == a[1..] + [sep] + b;
      SplitFirstUnique(s[1..], sep, a[1..], b);
      assert [s[0]] + a[1..] == a;
    }
  }

  lemma SplitFirstUniqueAll(s: string, sep: char)
    ensures forall a: string, b: string ::
              s == a + [sep] + b && sep !in a ==> SplitFirst(s, sep) == Some((a, b))
  {
    forall a: string, b: string | s == a + [sep] + b && sep !in a
      ensures SplitFirst(s, sep) == Some((a, b))
    {
      SplitFirstUnique(s, sep, a, b);
    }
  }

  /** The message of the ValueError raised for a bad entry. */
  function InvalidCycleMessage(raw: string): string {
    "Ciclo invalido '" + raw + "'. Use o formato TEMP:DURACAO, por exemplo 4:30."
  }

  /** One entry: split at the first ':' and parse both halves. */
  function ParseEntry(raw: string, parseFloat: string -> Option<real>): (r: Option<TemperatureCycle>)
    ensures ':' !in raw ==> r.None?
    ensures forall a: string, b: string ::
              raw == a + [':'] + b && ':' !in a ==>
                (r.Some? <==> parseFloat(a).Some? && parseFloat(b).Some?) &&
                (r.Some? ==> r.value == TemperatureCycle(parseFloat(a).value, parseFloat(b).value))
  {
    SplitFirstUniqueAll(raw, ':');
    match SplitFirst(raw, ':')
    case None => None
    case Some((temp, duration)) =>
      match (parseFloat(temp), parseFloat(duration))
      case (Some(t), Some(d)) => Some(TemperatureCycle(t, d))
      case _ => None
  }

  /** All entries in order; the first bad entry aborts the whole list. */
  function ParseEntries(raws: seq<string>, parseFloat: string -> Option<real>):
    (r: Result<seq<TemperatureCycle>, string>)
    ensures r.Success? <==> forall i :: 0 <= i < |raws| ==> ParseEntry(raws[i], parseFloat).Some?
    ensures r.Success? ==>
              && |r.value| == |raws|
              && forall i :: 0 <= i < |raws| ==> ParseEntry(raws[i], parseFloat) == Some(r.value[i])
    ensures r.Failure? ==>
              exists i :: && 0 <= i < |raws|
                          && ParseEntry(raws[i], parseFloat).None?
                          && r.error == InvalidCycleMessage(raws[i])
                          && forall j :: 0 <= j < i ==> ParseEntry(raws[j], parseFloat).Some?
    decreases |raws|
  {
    if |raws| == 0 then Success([])
    else
      match ParseEntry(raws[0], parseFloat)
      case None => Failure(InvalidCycleMessage(raws[0]))
      case Some(c) =>
        match ParseEntries(raws[1..], parseFloat)
        case Failure(e) =>
          ghost var i :| && 0 <= i < |raws[1..]|
                         && ParseEntry(raws[1..][i], parseFloat).None?
                         && e == InvalidCycleMessage(raws[1..][i])
                         && forall j :: 0 <= j < i ==> ParseEntry(raws[1..][j], parseFloat).Some?;
          assert ParseEntry(raws[i + 1], parseFloat).None?;
          Failure(e)
        case Success(cs) => Success([c] + cs)
  }

  /** `parse_cycles`: the default pair for an empty list, otherwise every entry
      parsed in order or the error for the first bad one. */
  function ParseCycles(raws: seq<string>, parseFloat: string -> Option<real>):
    (r: Result<seq<TemperatureCycle>, string>)
    ensures |raws| == 0 ==> r == Success(DefaultCycles())
    ensures |raws| > 0 && r.Success? ==>
              && |r.value| == |raws|
              && forall i :: 0 <= i < |raws| ==> ParseEntry(raws[i], parseFloat) == Some(r.value[i])
    ensures |raws| > 0 ==>
              (r.Failure? <==> exists i :: 0 <= i < |raws| && ParseEntry(raws[i], parseFloat).None?)
    // The error names the first bad entry.
    ensures r.Failure? ==>
              exists i :: && 0 <= i < |raws|
                          && ParseEntry(raws[i], parseFloat).None?
                          && r.error == InvalidCycleMessage(raws[i])
                          && forall j :: 0 <= j < i ==> ParseEntry(raws[j], parseFloat).Some?
  {
    if |raws| == 0 then Success(DefaultCycles()) else ParseEntries(raws, parseFloat)
  }

  /** `"4:30"` is a 4 °C segment lasting 30 seconds. */
  lemma ParsesFourThirty(parseFloat: string -> Option<real>)
    requires parseFloat("4") == Some(4.0) && parseFloat("30") == Some(30.0)
    ensures ParseCycles(["4:30"], parseFloat) == Success([TemperatureCycle(4.0, 30.0)])
  {
    SplitFirstUnique("4:30", ':', "4", "30");
    assert ParseEntry("4:30", parseFloat) == Some(TemperatureCycle(4.0, 30.0));
    var r := ParseEntries(["4:30"], parseFloat);
    assert r.Success?;
    assert r.value == [TemperatureCycle(4.0, 30.0)];
  }

  /** An entry without a separator is rejected with a message naming it. */
  lemma RejectsMissingSeparator(raw: string, parseFloat: string -> Option<real>)
    requires ':' !in raw
    ensures ParseCycles([raw], parseFloat) == Failure(InvalidCycleMessage(raw))
  {
  }

  /** Only the first ':' separates: "4:30:5" gives the duration text "30:5". */
  lemma SplitsAtFirstColonOnly(parseFloat: string -> Option<real>)
    requires parseFloat("4") == Some(4.0) && parseFloat("30:5") == None
    ensures ParseCycles(["4:30:5"], parseFloat) == Failure(InvalidCycleMessage("4:30:5"))
  {
    SplitFirstUnique("4:30:5", ':', "4", "30:5");
  }

  /** No range check: a negative temperature and a negative duration are kept
      as parsed. */
  lemma AcceptsNegativeValues(parseFloat: string -> Option<real>)
    requires parseFloat("-5") == Some(-5.0) && parseFloat("-1") == Some(-1.0)
    ensures ParseCycles(["-5:-1"], parseFloat) == Success([TemperatureCycle(-5.0, -1.0)])
  {
    SplitFirstUnique("-5:-1", ':', "-5", "-1");
    assert ParseEntry("-5:-1", parseFloat) == Some(TemperatureCycle(-5.0, -1.0));
    var r := ParseEntries(["-5:-1"], parseFloat);
    assert r.Success?;
    assert r.value == [TemperatureCycle(-5.0, -1.0)];
  }

  /** A bad entry anywhere discards the whole list, even the good entries
      before it. */
  lemma BadEntryRejectsAll(raws: seq<string>, k: nat, parseFloat: string -> Option<real>)
    requires k < |raws| && ParseEntry(raws[k], parseFloat).None?
    ensures ParseCycles(raws, parseFloat).Failure?
  {
  }

  /** The `TEMP:DURACAO` text of a cycle, given how numbers are written. */
  function FormatEntry(c: TemperatureCycle, show: real -> string): string {
    show(c.temperature) + [':'] + show(c.time)
  }

  function FormatEntries(cs: seq<TemperatureCycle>, show: real -> string): (raws: seq<string>)
    ensures |raws| == |cs|
    ensures forall i :: 0 <= i < |cs| ==> raws[i] == FormatEntry(cs[i], show)
  {
    seq(|cs|, i requires 0 <= i < |cs| => FormatEntry(cs[i], show))
  }

  /** The text `show` gives for x contains no ':' and `float()` reads it back
      as x. */
  predicate Legible(x: real, show: real -> string, parseFloat: string -> Option<real>) {
    ':' !in show(x) && parseFloat(show(x)) == Some(x)
  }

  /** Writing a non-empty cycle list as entries and parsing it back gives the
      same list, when every number written is legible: free of ':' and read
      back by `float()` as itself. */
  lemma FormatParseRoundTrip(cs: seq<TemperatureCycle>, show: real -> string,
                             parseFloat: string -> Option<real>)
    requires |cs| > 0
    requires forall i :: 0 <= i < |cs| ==>
               Legible(cs[i].temperature, show, parseFloat) && Legible(cs[i].time, show, parseFloat)
    ensures ParseCycles(FormatEntries(cs, show), parseFloat) == Success(cs)
  {
    var raws := FormatEntries(cs, show);
    forall i | 0 <= i < |cs|
      ensures ParseEntry(raws[i], parseFloat) == Some(cs[i])
    {
      SplitFirstUnique(raws[i], ':', show(cs[i].temperature), show(cs[i].time));
    }
    var r := ParseCycles(raws, parseFloat);
    assert r.Success?;
    assert r.value == cs;
  }
}

=== FILE: deadband.dfy ===
/** The dead-band (hysteresis) test that both actuator controllers run at the
    top of their `update`: compute `error = setpoint - measured`, hold when
    `|error|` is inside the neutral zone, otherwise act on the sign of the error.
    A measurement that is unavailable (a NaN in the source) fails every
    comparison and therefore falls through to the last branch. */
module Deadband {
  import opened Wrappers

  function Abs(x: real): (r: real)
    ensures r >= 0.0
    ensures r == x || r == -x
  {
    if x < 0.0 then -x else x
  }

  /** Which branch of the `if / elif / else` of an `update` was taken. */
  datatype Verdict =
    | Hold   // |error| < neutral zone
    | Raise  // error > 0: measured below the setpoint
    | Lower  // everything else, including an unavailable measurement

  function Judge(setpoint: real, measured: Option<real>, width: real): (v: Verdict)
    // Inside the band, in both directions of the error.
    ensures v == Hold <==> measured.Some? && -width < setpoint - measured.value < width
    // With a positive band the two acting branches are the closed half-lines
    // beyond the band.
    ensures width > 0.0 ==>
              (v == Raise <==> measured.Some? && setpoint - measured.value >= width)
    ensures width > 0.0 ==>
              (v == Lower <==> measured.None? || setpoint - measured.value <= -width)
    // With no band at all, any positive error raises and the rest lowers.
    ensures width <= 0.0 ==>
              (v == Raise <==> measured.Some? && setpoint - measured.value > 0.0)
    // A missing measurement never holds and never raises.
    ensures measured.None? ==> v == Lower
    // Raising needs the measurement strictly below the setpoint.
    ensures v == Raise ==> measured.Some? && measured.value < setpoint
  {
    match measured
    case None => Lower
    case Some(m) =>
      var error := setpoint - m;
      if Abs(error) < width then Hold
      else if error > 0.0 then Raise
      else Lower
  }

  /** The verdict depends on the setpoint and the measurement only through the
      error, so the band is symmetric about the setpoint. */
  lemma JudgeSymmetric(setpoint: real, m: real, width: real)
    requires width > 0.0
    ensures Judge(setpoint, Some(m), width) == Hold <==>
            Judge(-setpoint, Some(-m), width) == Hold
    ensures Judge(setpoint, Some(m), width) == Raise <==>
            Judge(-setpoint, Some(-m), width) == Lower
  {
  }
}

=== FILE: heater.dfy ===
/** The lid heater driver (`HeaterController`): a VNH-style bridge with two
    direction pins and a PWM level. The controller only ever commands the PWM
    fully off (0) or fully on (1), and it can only heat: above the setpoint it
    switches everything off rather than reversing the bridge. */
module Heater {
  import opened Wrappers
  import opened Deadband

  /** The heater's dead-band is a constant of the class, not a parameter. */
  const NeutralZone: real := 0.5

  datatype HeaterState = HeaterState(ctrl1: bool, ctrl2: bool, duty: int)

  /** The two bridge inputs are never driven together. */
  predicate PinsExclusive(s: HeaterState) {
    !(s.ctrl1 && s.ctrl2)
  }

  predicate DutyBinary(s: HeaterState) {
    s.duty == 0 || s.duty == 1
  }

  predicate Valid(s: HeaterState) {
    PinsExclusive(s) && DutyBinary(s)
  }

  /** Both pins low and no PWM: the bridge delivers no power. */
  predicate Idle(s: HeaterState) {
    !s.ctrl1 && !s.ctrl2 && s.duty == 0
  }

  /** True when the bridge is actively delivering power. */
  predicate Driving(s: HeaterState) {
    s.duty == 1 && s.ctrl1 && !s.ctrl2
  }

  /** `__init__`: PWM at 0 and both direction pins released. */
  function Init(): (s: HeaterState)
    ensures Idle(s) && Valid(s)
  {
    HeaterState(false, false, 0)
  }

  /** `on()`: select the heating polarity; the PWM level is not touched. */
  function On(s: HeaterState): (r: HeaterState)
    ensures r.ctrl1 && !r.ctrl2
    ensures r.duty == s.duty
    ensures DutyBinary(s) ==> Valid(r)
  {
    s.(ctrl1 := true, ctrl2 := false)
  }

  /** `off()`: release both pins and zero the PWM, whatever the state was. */
  function Off(s: HeaterState): (r: HeaterState)
    ensures Idle(r) && Valid(r)
  {
    HeaterState(false, false, 0)
  }

  /** `update(setpoint, current_temp)`; `current` is None when the reading is
      unavailable (the controller passes NaN in that case). */
  function Update(s: HeaterState, setpoint: real, current: Option<real>): (r: HeaterState)
    // Inside the band: PWM to 0, direction pins left exactly as they were.
    ensures Judge(setpoint, current, NeutralZone) == Hold ==>
              r.duty == 0 && r.ctrl1 == s.ctrl1 && r.ctrl2 == s.ctrl2
    // At least half a degree below the setpoint: driven forward at full power.
    ensures current.Some? && setpoint - current.value >= NeutralZone ==> Driving(r)
    // At least half a degree above, or no reading at all: fully off.
    ensures current.None? || setpoint - current.value <= -NeutralZone ==> Idle(r)
    // Power is delivered exactly when the reading is half a degree low.
    ensures r.duty == 1 <==> current.Some? && setpoint - current.value >= NeutralZone
    // It never heats a rig that is already above its setpoint.
    ensures current.Some? && current.value >= setpoint ==> r.duty == 0
    ensures DutyBinary(r)
    ensures PinsExclusive(s) ==> PinsExclusive(r)
  {
    match Judge(setpoint, current, NeutralZone)
    case Hold => s.(duty := 0)
    case Raise => On(s).(duty := 1)
    case Lower => Off(s)
  }

  /** Switching off twice is the same as switching off once. */
  lemma OffIdempotent(s: HeaterState)
    ensures Off(Off(s)) == Off(s)
  {
  }

  /** Repeating an update with the same arguments changes nothing more. */
  lemma UpdateIdempotent(s: HeaterState, setpoint: real, current: Option<real>)
    ensures Update(Update(s, setpoint, current), setpoint, current) == Update(s, setpoint, current)
  {
  }
}

=== FILE: peltier.dfy ===
/** The Peltier driver (`PeltierController`): an H-bridge whose polarity picks
    heating or cooling, a PWM level and a fan. Unlike the heater it acts in both
    directions, with a dead-band chosen at construction; the fan runs only while
    heating. */
module Peltier {
  import opened Wrappers
  import opened Deadband

  datatype PeltierState = PeltierState(
    ctrl1: bool,
    ctrl2: bool,
    duty: int,
    fan: int,
    neutralZone: real)

  predicate PinsExclusive(s: PeltierState) {
    !(s.ctrl1 && s.ctrl2)
  }

  predicate LevelsBinary(s: PeltierState) {
    (s.duty == 0 || s.duty == 1) && (s.fan == 0 || s.fan == 1)
  }

  predicate Valid(s: PeltierState) {
    PinsExclusive(s) && LevelsBinary(s)
  }

  /** No power to the element and the fan stopped. */
  predicate Quiet(s: PeltierState) {
    s.duty == 0 && s.fan == 0
  }

  /** Full power in heating polarity, fan assisting. */
  predicate Heating(s: PeltierState) {
    !s.ctrl1 && s.ctrl2 && s.duty == 1 && s.fan == 1
  }

  /** Full power in cooling polarity, fan stopped. */
  predicate Cooling(s: PeltierState) {
    s.ctrl1 && !s.ctrl2 && s.duty == 1 && s.fan == 0
  }

  /** `__init__`: PWM and fan at 0, both polarity pins released. */
  function Init(neutralZone: real): (s: PeltierState)
    ensures Quiet(s) && !s.ctrl1 && !s.ctrl2
    ensures Valid(s)
    ensures s.neutralZone == neutralZone
  {
    PeltierState(false, false, 0, 0, neutralZone)
  }

  /** `heat()`: heating polarity; power and fan levels are not touched. */
  function Heat(s: PeltierState): (r: PeltierState)
    ensures !r.ctrl1 && r.ctrl2
    ensures r.duty == s.duty && r.fan == s.fan && r.neutralZone == s.neutralZone
  {
    s.(ctrl1 := false, ctrl2 := true)
  }

  /** `cool()`: cooling polarity; power and fan levels are not touched. */
  function Cool(s: PeltierState): (r: PeltierState)
    ensures r.ctrl1 && !r.ctrl2
    ensures r.duty == s.duty && r.fan == s.fan && r.neutralZone == s.neutralZone
  {
    s.(ctrl1 := true, ctrl2 := false)
  }

  /** `off()`: power and fan to 0. The polarity pins keep their last value,
      unlike the heater's `off()`. */
  function Off(s: PeltierState): (r: PeltierState)
    ensures Quiet(r)
    ensures r.ctrl1 == s.ctrl1 && r.ctrl2 == s.ctrl2 && r.neutralZone == s.neutralZone
    ensures PinsExclusive(s) ==> Valid(r)
  {
    s.(duty := 0, fan := 0)
  }

  /** `update(setpoint, current_temp)` against the controller's own dead-band. */
  function Update(s: PeltierState, setpoint: real, current: real): (r: PeltierState)
    ensures r.neutralZone == s.neutralZone
    // Inside the band: quiet, polarity untouched.
    ensures -s.neutralZone < setpoint - current < s.neutralZone ==>
              Quiet(r) && r.ctrl1 == s.ctrl1 && r.ctrl2 == s.ctrl2
    // Far enough below the setpoint: heat with the fan.
    ensures s.neutralZone > 0.0 && setpoint - current >= s.neutralZone ==> Heating(r)
    // Far enough above the setpoint: cool without the fan.
    ensures s.neutralZone > 0.0 && setpoint - current <= -s.neutralZone ==> Cooling(r)
    // Whatever the band width: the verdict decides polarity and power.
    ensures Judge(setpoint, Some(current), s.neutralZone) == Raise ==> Heating(r)
    ensures Judge(setpoint, Some(current), s.neutralZone) == Lower ==> Cooling(r)
    ensures Judge(setpoint, Some(current), s.neutralZone) == Hold ==>
              Quiet(r) && r.ctrl1 == s.ctrl1 && r.ctrl2 == s.ctrl2
    // The fan runs exactly when this update chose to heat.
    ensures r.fan == 1 <==> Judge(setpoint, Some(current), s.neutralZone) == Raise
    ensures r.fan == 1 ==> current < setpoint
    ensures LevelsBinary(r)
    ensures PinsExclusive(s) ==> PinsExclusive(r)
  {
    match Judge(setpoint, Some(current), s.neutralZone)
    case Hold => s.(duty := 0, fan := 0)
    case Raise => Heat(s).(duty := 1, fan := 1)
    case Lower => Cool(s).(duty := 1, fan := 0)
  }

  /** Switching off twice is the same as switching off once. */
  lemma OffIdempotent(s: PeltierState)
    ensures Off(Off(s)) == Off(s)
  {
  }

  /** Repeating an update with the same arguments changes nothing more. */
  lemma UpdateIdempotent(s: PeltierState, setpoint: real, current: real)
    ensures Update(Update(s, setpoint, current), setpoint, current) == Update(s, setpoint, current)
  {
  }
}

=== FILE: sensor.dfy ===
/** Sensor conditioning (`TemperatureSensor`): an exponentially smoothed
    thermocouple channel and an NTC thermistor read through a voltage divider
    and converted with the single-point Beta equation. The bus reads themselves
    are inputs here; `exp` and `ln` are supplied as functions because the model
    says nothing about them beyond where Python's `math` raises. */
module Sensor {
  import opened Wrappers
  import opened Deadband

  // ---------------------------------------------------------------------------
  // Thermocouple channel: first-order exponential smoothing
  // ---------------------------------------------------------------------------

  /** Smoothing factor and the last filtered value. */
  datatype Thermocouple = Thermocouple(alpha: real, filtered: real)

  /** x lies on the closed segment between a and b. */
  predicate Between(x: real, a: real, b: real) {
    (a <= x <= b) || (b <= x <= a)
  }

  /** Construction: the filter starts at the first raw reading. */
  function OpenThermocouple(alpha: real, firstRaw: real): (t: Thermocouple)
    ensures t.alpha == alpha
    ensures t.filtered == firstRaw
  {
    Thermocouple(alpha, firstRaw)
  }

  /** The smoothing rule: weight alpha on the new raw reading, 1 - alpha on
      the previous filtered value. */
  function Blend(alpha: real, previous: real, raw: real): real {
    alpha * raw + (1.0 - alpha) * previous
  }

  /** `read_thermocouple`: mixes the raw reading into the filter state and
      returns the new state together with the value handed to the caller. */
  function ReadThermocouple(t: Thermocouple, raw: real): (r: (Thermocouple, real))
    ensures r.0.alpha == t.alpha
    ensures r.1 == r.0.filtered
    // The gap to the raw reading shrinks by the factor (1 - alpha).
    ensures r.1 - raw == (1.0 - t.alpha) * (t.filtered - raw)
    ensures Abs(r.1 - raw) == Abs(1.0 - t.alpha) * Abs(t.filtered - raw)
    // A convex combination for a factor in [0, 1].
    ensures 0.0 <= t.alpha <= 1.0 ==> Between(r.1, t.filtered, raw)
    // A reading equal to the state is a fixed point.
    ensures raw == t.filtered ==> r.0 == t
  {
    var f := Blend(t.alpha, t.filtered, raw);
    AbsProduct(1.0 - t.alpha, t.filtered - raw);
    ShrunkGapStaysBetween(1.0 - t.alpha, f, t.filtered, raw);
    (t.(filtered := f), f)
  }

  /** Moving a fraction k in [0, 1] of the way back from a to b stays on the
      segment between them. */
  lemma ShrunkGapStaysBetween(k: real, x: real, a: real, b: real)
    requires x - b == k * (a - b)
    ensures 0.0 <= k <= 1.0 ==> Between(x, a, b)
  {
    if 0.0 <= k <= 1.0 {
      var d := a - b;
      assert x - b == k * d;
      if d >= 0.0 {
        ScaledWithin(k, d);
        assert b <= x <= a;
      } else {
        ScaledWithin(k, -d);
        assert k * (-d) == -(k * d);
        assert a <= x <= b;
      }
    }
  }

  lemma AbsProduct(a: real, b: real)
    ensures Abs(a * b) == Abs(a) * Abs(b)
  {
    if a < 0.0 && b < 0.0 {
      assert a * b > 0.0;
    } else if a < 0.0 && b >= 0.0 {
      assert a * b <= 0.0;
    } else if a >= 0.0 && b < 0.0 {
      assert a * b <= 0.0;
    } else {
      assert a * b >= 0.0;
    }
  }

  lemma ScaledWithin(k: real, d: real)
    requires 0.0 <= k <= 1.0 && d >= 0.0
    ensures 0.0 <= k * d <= d
  {
    assert d - k * d == (1.0 - k) * d;
  }

  /** The filter after n readings that all return the same raw value: the
      state `read_thermocouple` leaves behind when called n times. */
  function Settle(t: Thermocouple, raw: real, n: nat): (r: Thermocouple)
    ensures r.alpha == t.alpha
    decreases n
  {
    if n == 0 then t else t.(filtered := Blend(t.alpha, Settle(t, raw, n - 1).filtered, raw))
  }

  function Power(x: real, n: nat): real {
    if n == 0 then 1.0 else x * Power(x, n - 1)
  }

  /** Each step of `Settle` is one `read_thermocouple` call. */
  lemma SettleIsRepeatedRead(t: Thermocouple, raw: real, n: nat)
    requires n > 0
    ensures Settle(t, raw, n) == ReadThermocouple(Settle(t, raw, n - 1), raw).0
  {
  }

  lemma SettleGap(t: Thermocouple, raw: real, n: nat)
    requires n > 0
    ensures Settle(t, raw, n).filtered - raw ==
            (1.0 - t.alpha) * (Settle(t, raw, n - 1).filtered - raw)
  {
  }

  /** Held at a constant raw input, the gap to it shrinks geometrically:
      after n readings it is (1 - alpha)^n times the initial gap. */
  lemma {:induction false} ConstantInputContracts(t: Thermocouple, raw: real, n: nat)
    ensures Settle(t, raw, n).filtered - raw == Power(1.0 - t.alpha, n) * (t.filtered - raw)
    decreases n
  {
    if n > 0 {
      ConstantInputContracts(t, raw, n - 1);
      SettleGap(t, raw, n);
      var k := 1.0 - t.alpha;
      MulRearrange(Power(k, n - 1), k, t.filtered - raw,
                   Settle(t, raw, n).filtered - raw, Power(k, n));
    }
  }

  /** For a factor in [0, 1] a constant input is approached without ever being
      overshot: the filtered value stays between its start and the input. */
  lemma {:induction false} ConstantInputNeverOvershoots(t: Thermocouple, raw: real, n: nat)
    requires 0.0 <= t.alpha <= 1.0
    ensures Between(Settle(t, raw, n).filtered, t.filtered, raw)
    decreases n
  {
    if n > 0 {
      ConstantInputNeverOvershoots(t, raw, n - 1);
      var prev := Settle(t, raw, n - 1);
      var next := Settle(t, raw, n).filtered;
      assert next == Blend(t.alpha, prev.filtered, raw);
      ShrunkGapStaysBetween(1.0 - t.alpha, next, prev.filtered, raw);
      BetweenShrinks(Settle(t, raw, n).filtered, prev.filtered, t.filtered, raw);
    }
  }

  lemma BetweenShrinks(x: real, y: real, a: real, b: real)
    requires Between(x, y, b) && Between(y, a, b)
    ensures Between(x, a, b)
  {
  }

  lemma MulRearrange(p: real, k: real, d: real, after: real, pn: real)
    requires after == k * (p * d) && pn == k * p
    ensures after == pn * d
  {
  }

  /** The filter after `read_thermocouple` has been called once per raw value,
      in order. */
  function Smooth(t: Thermocouple, raws: seq<real>): (r: Thermocouple)
    ensures r.alpha == t.alpha
    decreases |raws|
  {
    if |raws| == 0 then t else Smooth(ReadThermocouple(t, raws[0]).0, raws[1..])
  }

  /** Smoothing two runs of readings one after the other is smoothing their
      concatenation: the state carries everything the filter remembers. */
  lemma {:induction false} SmoothAppend(t: Thermocouple, a: seq<real>, b: seq<real>)
    ensures Smooth(t, a + b) == Smooth(Smooth(t, a), b)
    decreases |a|
  {
    if |a| == 0 {
      assert a + b == b;
    } else {
      assert (a + b)[0] == a[0];
      assert (a + b)[1..] == a[1..] + b;
      SmoothAppend(ReadThermocouple(t, a[0]).0, a[1..], b);
    }
  }

  /** The k-th reading of a run is one `read_thermocouple` call on the state
      the k readings before it left behind. */
  lemma SmoothStep(t: Thermocouple, raws: seq<real>, k: nat)
    requires k < |raws|
    ensures Smooth(t, raws[..k + 1]) == ReadThermocouple(Smooth(t, raws[..k]), raws[k]).0
  {
    assert raws[..k] + [raws[k]] == raws[..k + 1];
    SmoothAppend(t, raws[..k], [raws[k]]);
    assert [raws[k]][1..] == [];
  }

  /** For a factor in [0, 1] the filter never leaves an interval that holds
      its starting value and every raw reading. */
  lemma {:induction false} SmoothStaysInRange(t: Thermocouple, raws: seq<real>, lo: real, hi: real)
    requires 0.0 <= t.alpha <= 1.0
    requires lo <= t.filtered <= hi
    requires forall i :: 0 <= i < |raws| ==> lo <= raws[i] <= hi
    ensures lo <= Smooth(t, raws).filtered <= hi
    decreases |raws|
  {
    if |raws| > 0 {
      var next := ReadThermocouple(t, raws[0]).0;
      assert Between(next.filtered, t.filtered, raws[0]);
      SmoothStaysInRange(next, raws[1..], lo, hi);
    }
  }

  /** A constant input is the special case that `Settle` describes. */
  lemma {:induction false} SmoothConstantIsSettle(t: Thermocouple, raw: real, n: nat)
    ensures Smooth(t, seq(n, _ => raw)) == Settle(t, raw, n)
    decreases n
  {
    if n > 0 {
      var prefix := seq(n - 1, _ => raw);
      assert seq(n, _ => raw) == prefix + [raw];
      SmoothAppend(t, prefix, [raw]);
      SmoothConstantIsSettle(t, raw, n - 1);
      assert [raw][1..] == [];
      SettleIsRepeatedRead(t, raw, n);
    }
  }

  /** The values handed to the caller over a run of readings: the k-th is the
      filter after the first k + 1 raw values. */
  function Trace(t: Thermocouple, raws: seq<real>): (fs: seq<real>)
    ensures |fs| == |raws|
  {
    seq(|raws|, k requires 0 <= k < |raws| => Smooth(t, raws[..k + 1]).filtered)
  }

  /** The trace of two consecutive runs: the second starts where the first
      left the filter. */
  lemma TraceAppend(t: Thermocouple, a: seq<real>, b: seq<real>)
    ensures Trace(t, a + b) == Trace(t, a) + Trace(Smooth(t, a), b)
  {
    var lhs := Trace(t, a + b);
    var rhs := Trace(t, a) + Trace(Smooth(t, a), b);
    forall k | 0 <= k < |a + b|
      ensures lhs[k] == rhs[k]
    {
      if k < |a| {
        assert (a + b)[..k + 1] == a[..k + 1];
      } else {
        var j := k - |a|;
        assert (a + b)[..k + 1] == a + b[..j + 1];
        SmoothAppend(t, a, b[..j + 1]);
      }
    }
  }

  /** The first value of a trace is one reading from the starting state. */
  lemma TraceSingle(t: Thermocouple, raw: real)
    ensures Trace(t, [raw]) == [ReadThermocouple(t, raw).1]
    ensures Smooth(t, [raw]) == ReadThermocouple(t, raw).0
  {
    assert [raw][..1] == [raw];
    assert [raw][1..] == [];
    assert Smooth(t, [raw]) == Smooth(ReadThermocouple(t, raw).0, []);
    assert Trace(t, [raw])[0] == Smooth(t, [raw]).filtered;
  }


  /** Offset between Kelvin and Celsius as written in the conversion. */
  const KelvinOffset: real := 273.0

  /** The Beta-curve calibration and the divider, with R∞ = R0·exp(−β/T0)
      computed once at construction. */
  datatype NtcCalibration = NtcCalibration(
    beta: real,
    r0: real,
    t0: real,
    vcc: real,
    seriesResistor: real,
    rx: real)

  /** Construction of the NTC part of the sensor; the division by T0 raises
      (uncaught) when T0 is zero, so construction requires it. */
  function Calibrate(beta: real, r0: real, t0: real, vcc: real, seriesResistor: real,
                     exp: real -> real): (c: NtcCalibration)
    requires t0 != 0.0
    ensures c.beta == beta && c.r0 == r0 && c.t0 == t0
    ensures c.vcc == vcc && c.seriesResistor == seriesResistor
    // R∞ is the resistance the Beta curve assigns to infinite temperature:
    // scaling it by exp(β/T0) gives back the calibration resistance R0.
    ensures exp(-beta / t0) != 0.0 ==> c.rx / exp(-beta / t0) == r0
    // R∞ vanishes, and every later NTC read fails, exactly when R0 or the
    // exponential does.
    ensures c.rx == 0.0 <==> r0 == 0.0 || exp(-beta / t0) == 0.0
  {
    NtcCalibration(beta, r0, t0, vcc, seriesResistor, r0 * exp(-beta / t0))
  }

  /** Thermistor resistance from the divider output voltage v. */
  function Resistance(c: NtcCalibration, v: real): (rt: real)
    requires v != 0.0
    // The divider equation: the supply splits over Rt + Rseries.
    ensures (rt + c.seriesResistor) * v == c.vcc * c.seriesResistor
  {
    (c.vcc * c.seriesResistor) / v - c.seriesResistor
  }

  /** `read_ntc`: None whenever the bus read or any arithmetic step raises
      (division by a zero voltage or a zero R∞, log of a non-positive ratio,
      division by a zero log). */
  function ReadNtc(c: NtcCalibration, voltage: Option<real>, ln: real -> real): (r: Option<real>)
    ensures voltage.None? ==> r.None?
    ensures voltage == Some(0.0) ==> r.None?
    ensures c.rx == 0.0 ==> r.None?
    // On success the Kelvin value satisfies the Beta equation
    // (T + 273) · ln(Rt / R∞) = β for the measured Rt.
    ensures r.Some? ==>
              && voltage.Some? && voltage.value != 0.0 && c.rx != 0.0
              && Resistance(c, voltage.value) / c.rx > 0.0
              && ln(Resistance(c, voltage.value) / c.rx) != 0.0
              && (r.value + KelvinOffset) * ln(Resistance(c, voltage.value) / c.rx) == c.beta
    // And it fails only for those reasons.
    ensures r.None? ==>
              || voltage.None? || voltage.value == 0.0 || c.rx == 0.0
              || Resistance(c, voltage.value) / c.rx <= 0.0
              || ln(Resistance(c, voltage.value) / c.rx) == 0.0
  {
    match voltage
    case None => None
    case Some(v) =>
      if v == 0.0 then None
      else
        var rt := Resistance(c, v);
        if c.rx == 0.0 then None
        else
          var ratio := rt / c.rx;
          if ratio <= 0.0 then None
          else
            var l := ln(ratio);
            if l == 0.0 then None
            else Some(c.beta / l - KelvinOffset)
  }

  /** With a positive supply, series resistor and R∞, a voltage at or above the
      supply, or a negative one, gives a non-positive resistance and the read
      fails. */
  lemma NtcFailsOutsideDivider(c: NtcCalibration, v: real, ln: real -> real)
    requires c.vcc > 0.0 && c.seriesResistor > 0.0 && c.rx > 0.0
    requires v >= c.vcc || v < 0.0
    ensures Resistance(c, v) <= 0.0
    ensures ReadNtc(c, Some(v), ln).None?
  {
    var rt := Resistance(c, v);
    var rs := c.seriesResistor;
    var q := c.vcc * rs / v;
    assert rt == q - rs;
    if v >= c.vcc {
      QuotientAtMost(c.vcc * rs, v, rs);
    } else {
      assert q < 0.0;
    }
    assert rt / c.rx <= 0.0;
  }

  lemma QuotientAtMost(a: real, v: real, b: real)
    requires v > 0.0 && a <= b * v
    ensures a / v <= b
  {
  }

  /** A thermistor sitting exactly at R∞ makes the log zero; with ln(1) = 0 the
      final division raises and the read fails. */
  lemma NtcFailsAtRx(c: NtcCalibration, v: real, ln: real -> real)
    requires v != 0.0 && c.rx != 0.0
    requires Resistance(c, v) == c.rx
    requires ln(1.0) == 0.0
    ensures ReadNtc(c, Some(v), ln).None?
  {
    assert Resistance(c, v) / c.rx == 1.0;
  }

  /** Divider voltage that a thermistor at Celsius temperature tc produces,
      following the Beta curve Rt = R∞ · exp(β / (tc + 273)). */
  function VoltageAt(c: NtcCalibration, tc: real, exp: real -> real): real
    requires tc + KelvinOffset != 0.0
    requires c.rx * exp(c.beta / (tc + KelvinOffset)) + c.seriesResistor != 0.0
  {
    c.vcc * c.seriesResistor / (c.rx * exp(c.beta / (tc + KelvinOffset)) + c.seriesResistor)
  }

  /** Conversion round trip: when ln undoes exp at the point involved, reading
      the voltage a thermistor at tc would produce gives back tc exactly. */
  lemma NtcRoundTrip(c: NtcCalibration, tc: real, exp: real -> real, ln: real -> real)
    requires tc + KelvinOffset > 0.0
    requires c.vcc > 0.0 && c.seriesResistor > 0.0 && c.rx > 0.0 && c.beta != 0.0
    requires exp(c.beta / (tc + KelvinOffset)) > 0.0
    requires ln(exp(c.beta / (tc + KelvinOffset))) == c.beta / (tc + KelvinOffset)
    ensures ReadNtc(c, Some(VoltageAt(c, tc, exp)), ln) == Some(tc)
  {
    var k := tc + KelvinOffset;
    var e := exp(c.beta / k);
    var rs := c.seriesResistor;
    var rt := c.rx * e;
    assert rt > 0.0;
    var v := VoltageAt(c, tc, exp);
    assert v == c.vcc * rs / (rt + rs);
    assert v > 0.0;
    var rt' := Resistance(c, v);
    assert (rt' + rs) * v == c.vcc * rs;
    assert (rt + rs) * v == c.vcc * rs;
    assert rt' == rt by {
      assert (rt' + rs) * v == (rt + rs) * v;
    }
    assert rt' / c.rx == e;
    assert ln(e) == c.beta / k;
    assert c.beta / (c.beta / k) == k;
  }

  /** Calibration round trip: a thermistor at the calibration resistance R0
      reads back the calibration temperature T0, converted with the 273 offset.
      Assumes of exp and ln only that exp(-x) · exp(x) = 1 and ln(exp(x)) = x at
      x = β/T0. */
  lemma CalibrationPointReadsBack(beta: real, r0: real, t0: real, vcc: real, seriesResistor: real,
                                  exp: real -> real, ln: real -> real)
    requires t0 > 0.0 && beta != 0.0 && r0 > 0.0 && vcc > 0.0 && seriesResistor > 0.0
    requires exp(beta / t0) > 0.0 && exp(-beta / t0) * exp(beta / t0) == 1.0
    requires ln(exp(beta / t0)) == beta / t0
    ensures ReadNtc(Calibrate(beta, r0, t0, vcc, seriesResistor, exp),
                    Some(vcc * seriesResistor / (r0 + seriesResistor)), ln)
            == Some(t0 - KelvinOffset)
  {
    var c := Calibrate(beta, r0, t0, vcc, seriesResistor, exp);
    var tc := t0 - KelvinOffset;
    assert tc + KelvinOffset == t0;
    var up := exp(beta / t0);
    var down := exp(-beta / t0);
    PositiveReciprocal(down, up);
    assert c.rx * up == r0 by {
      assert c.rx == r0 * down;
      assert r0 * down * up == r0 * (down * up);
    }
    assert VoltageAt(c, tc, exp) == vcc * seriesResistor / (r0 + seriesResistor);
    NtcRoundTrip(c, tc, exp, ln);
  }

  lemma PositiveReciprocal(a: real, b: real)
    requires b > 0.0 && a * b == 1.0
    ensures a > 0.0
  {
    assert a == 1.0 / b;
  }
}

=== FILE: wrappers.dfy ===
/** Failure-carrying values shared by the whole model: `Option` stands for a
    reading that may be unavailable (Python's `None`, or a NaN placeholder) and
    `Result` for an operation that either succeeds or raises with a message. */
module Wrappers {

  datatype Option<+T> = None | Some(value: T)

  datatype Result<+R, +E> = Success(value: R) | Failure(error: E)
}
